=== FILE: README.md ===
# Placeholder normalisation of the lexsy document filler, in Dafny

The application takes a `.docx` template whose placeholders are written in
square brackets (`[Company Name]`, `[name]`, `[_____]`), finds them, and later
fills them from a mapping the user supplies. This project models the logic at
the heart of that flow and proves properties of it:

- **Upload normalisation** (`normalizeDocxAndExtractPlaceholders`,
  `isBlankUnderscore` and `escapeXml` in `app/api/upload/route.ts`):
  - The text of `word/document.xml` is cut into `<w:t>` runs by a
    case-insensitive regular expression (module `RunScanner`).
  - A cursor walks the runs and finds each bracket span, which may cross
    runs. A span whose cleaned text is empty or only underscores is a visual
    blank and is not recorded. Such a span always lies inside one run with its
    `[` before its `]`: the text of a span that crosses runs, or whose `]`
    comes first, contains that `]` and so is never blank. The brackets, the
    text between them and the text before `[` go, so `a[___]b` becomes `b`.
    Underscores split over runs (`[___` and `___]`) therefore become the
    placeholder `{{______]}}`. Any other span becomes `{{Key}}` in its first
    run. The key comes from the cleaned text, and `name`/`title` become
    context-qualified from the 400 characters before the run (module
    `Normalizer`).
  - The document is rebuilt from the last run to the first, with every run's
    text XML-escaped (modules `Rebuild` and `XmlEscape`).
  - The first placeholder of every key is kept, in order (module `Dedup`).
  - Module `UploadDocx` composes these steps.
- **Legacy extraction** (`app/api/upload/route.js`, lines 23-24): every match
  of `\[[^\]]+\]` in the plain text, without duplicates, minus the
  underscore-only tokens (module `LegacyUpload`).
- **Key cleaning on fill** (`app/api/fill/route.js`, lines 22-26): each mapping
  key loses its brackets and surrounding white space, and later entries
  overwrite earlier ones with the same cleaned key (module `FillMapping`).

`Text` holds the JavaScript string operations the code relies on:
- the `\s` class and `trim()`;
- `indexOf`;
- `substring` with its clamping and argument swap;
- `includes`;
- ASCII `toLowerCase`;
- `replace(/\s+/g, ' ')`.

`Options` holds the `Option` type, used where JavaScript returns `-1`, `null` or
`undefined`.

Four loops of the code are modelled twice: once as a recursive function, and
once as a method with the same loop shape. They are the cursor loop
(`NormalizeRuns`), the rebuild (`RebuildXml`), the `Map` insertion
(`KeepFirstLoop`) and the fill mapping (`CleanMappingLoop`). A proof shows that
each method computes its function. Four loops are modelled only as recursive
functions: the `exec` loop of the scanner (`ScanFrom`), the forward search for
`]` (`FindCloseRun`), and the `for k` append and the per-run `else` append that
build `spanText` when a span crosses runs (both by `JoinTexts`). The two loops
that empty runs in place, for a blank span and for a real one, are modelled by
the method `ClearRuns`.

Quirks of the code are modelled as written:
- `spanText` counts the runs strictly between `[` and `]` twice, and always
  includes the whole closing run, `]` included.
- A `]` that comes before the `[` in the same run closes the span, because
  `substring` then swaps its arguments.
- Only the first `[` of a run is considered.
- A blank span also loses the text before `[`, because the closing-run write
  overwrites it. The writes for a blank span that crosses runs can never be
  reached (`Normalizer.BlankSpanInOneRun`).
- The opening tag `<w:t[^>]*>` is loose. It also matches `<w:tab/>`, `<w:tr>`,
  `<w:tc>` and `<w:tbl>`, and the run's text then takes in everything up to
  the next closing tag (`RunScanner.LooseOpenTagExample`).
- Run text is escaped again, so `&amp;` in a run becomes `&amp;amp;`
  (`Rebuild.DoubleEscape`).

## Model

| member | source | states |
|---|---|---|
| Text.IndexOf | app/api/upload/route.ts:64 | `indexOf` finds the first position of the character, and reports none exactly when the character does not occur |
| Text.Substring | app/api/upload/route.ts:99 | `substring(a, b)` is the slice between the arguments in either order, never longer than the string |
| Text.Trim | app/api/fill/route.js:24 | `trim()` keeps a slice that neither starts nor ends with white space, and everything it cuts is white space |
| Text.CollapseTrimCleans | app/api/upload/route.ts:110 | the cleaned span text keeps every non-space character in order, has no white space at either end, and holds single plain spaces only; it is empty exactly when the input is all white space |
| Text.CollapseKeepsContent | app/api/upload/route.ts:110 | collapsing white-space runs keeps every other character, in order |
| Text.CollapseShape | app/api/upload/route.ts:110 | after collapsing, every white-space character is a plain space and no two are adjacent |
| Text.CollapseConcat | app/api/upload/route.ts:110 | collapsing works piece by piece wherever a cut does not fall inside a white-space run |
| Text.CollapseSpaces | app/api/upload/route.ts:110 | a non-empty white-space run of any length and any white-space characters collapses to exactly one space |
| Text.CollapseJoin | app/api/upload/route.ts:110 | a white-space run between two pieces that do not touch it with white space becomes one space, and the pieces are collapsed on their own |
| Text.CollapseTrimJoin | app/api/upload/route.ts:110 | two pieces that start and end with a non-space character, joined by any white-space run, clean to the two cleaned pieces joined by one space |
| RunScanner.MatchAt | app/api/upload/route.ts:36 | a match at `p` is an opening tag from `<w:t` (any case) to the first `>`, then text up to the first closing tag after it; the match is the exact slice of the document at `p`; there is one exactly when `<w:t`, a later `>` and a closing tag after that are present |
| RunScanner.FindCloseAt | app/api/upload/route.ts:36 | the lazy text part stops at the closing tag at `c` when no `</` starts between the search start and `c` |
| RunScanner.LooseOpenTagExample | app/api/upload/route.ts:36 | in `<w:tab/><w:t>x</w:t>` the match at 0 takes `<w:tab/>` as its opening tag and `<w:t>x` as its text |
| RunScanner.Scan | app/api/upload/route.ts:45-54 | the runs are exactly matches of the expression, inside the document, in order without overlap; every position where a match starts lies inside one of them |
| RunScanner.WellPlacedAscending | app/api/upload/route.ts:45-54 | run offsets strictly increase, so run order is document order |
| Normalizer.FindCloseRun | app/api/upload/route.ts:79-95 | the forward search returns the first run from `j` holding `]`, and none exactly when no run from `j` holds one |
| Normalizer.FindSpan | app/api/upload/route.ts:63-107 | there is no span exactly when run `i` has no `[` or no run from `i` on has a `]`; otherwise the span opens at the first `[` of run `i` and closes at the first `]` of the first run from `i` that has one |
| Normalizer.SpanTextCrossing | app/api/upload/route.ts:72-94 | a span across runs reads the first run after `[`, the runs strictly between, those runs again, and then the whole closing run, `]` and what follows included |
| Normalizer.SpanTextWithinRun | app/api/upload/route.ts:96-99 | within one run the span text is what lies strictly between `[` and `]`; when `]` comes first, the swapped `substring` gives the text from `]` up to and including `[` |
| Normalizer.SpanTextExample | app/api/upload/route.ts:72-94 | the runs `[a`, `b`, `c]d` hold one span, whose text reads `abbc]d` |
| Normalizer.ClosingBracketNeverBlank | app/api/upload/route.ts:110-112 | a span text that contains `]` never cleans to an empty or underscore-only key |
| Normalizer.MultiRunNeverBlank | app/api/upload/route.ts:72-95 | the cleaned text of a span that crosses runs is never blank, because it holds the closing run's `]` |
| Normalizer.SwappedSpanNeverBlank | app/api/upload/route.ts:96-99 | the cleaned text of a one-run span whose `]` comes before its `[` is never blank, because it starts with that `]` |
| Normalizer.BlankSpanInOneRun | app/api/upload/route.ts:110-124 | a span found at run `i` whose cleaned text is blank ends in run `i`, with `[` before `]`; the writes for a blank span across runs are dead code |
| Normalizer.SplitUnderscoresExample | app/api/upload/route.ts:72-112 | underscores split over the runs `[___` and `___]` form one span whose text is `______]`, which is not blank and so becomes a placeholder |
| Normalizer.IsBlankUnderscoreMeans | app/api/upload/route.ts:17-19 | `isBlankUnderscore` holds exactly when the string has at least one `_` and every other character is white space |
| Normalizer.BlankIffUnderscores | app/api/upload/route.ts:110-112 | a span is treated as blank exactly when its text without white space is empty or all underscores |
| Normalizer.NbspRemovalIsRedundant | app/api/upload/route.ts:17-19 | removing non-breaking spaces before the white-space removal of `isBlankUnderscore` changes nothing |
| Normalizer.Window | app/api/upload/route.ts:135-136 | the context window is the lower-cased text of at most 400 characters ending at the run's offset |
| Normalizer.InferContextPrecedence | app/api/upload/route.ts:137-139 | the context is investor whenever the window mentions "investor", company when it mentions "company" but not "investor", and none otherwise |
| Normalizer.ResolveKeyTable | app/api/upload/route.ts:142-150 | `name` in any case becomes `Investor Name`, `Company Name` or `Name` by context, `title` likewise `Investor Title`, `Company Title` or `Title`, and any other inner text is the key unchanged |
| Normalizer.ResolveKeyRenamesOnlyNameAndTitle | app/api/upload/route.ts:142-150 | only `name` and `title` (any case) are renamed; only for them does the context change the key, and each context gives a different key |
| Normalizer.Step | app/api/upload/route.ts:62-172 | every iteration moves the cursor forward within the runs, gives one new text per run it passes, and records an entry only for the run at the cursor, which holds a `[` |
| Normalizer.StepWithoutSpan | app/api/upload/route.ts:66-69 | without a span at the cursor, the run keeps its text, nothing is recorded and the cursor moves by one |
| Normalizer.StepBlankSpan | app/api/upload/route.ts:112-127 | a blank span records nothing: the first run keeps its text before `[` (lost within one run), the closing run its text after `]`, the runs between become empty, and the cursor moves past the span; the case of a span across runs is covered but never reached (`BlankSpanInOneRun`) |
| Normalizer.StepRealSpan | app/api/upload/route.ts:152-171 | a real span records one entry at the run's offset, with raw `[inner]` and the key resolved in the window's context; the first run becomes before + `{{key}}` + after and the others become empty |
| Normalizer.UnmatchedBracketsChangeNothing | app/api/upload/route.ts:66-107 | when no `[` has a `]` in its own or a later run, the pass changes no text and finds nothing |
| Normalizer.NoSpanChangesNothing | app/api/upload/route.ts:63-106 | a document with no `[` in any run, or no `]` in any run, is left as it is, literal brackets included, with no placeholders |
| Normalizer.PassPositionsAscend | app/api/upload/route.ts:162-171 | the recorded entries are in strictly increasing position, each the offset of a run holding a `[` |
| Normalizer.StepConsistent | app/api/upload/route.ts:109-168 | an entry a step records is consistent: a non-blank cleaned text in brackets, the context inferred from the window before its position, and the key that text resolves to in that context |
| Normalizer.PassEntriesConsistent | app/api/upload/route.ts:162-168 | every entry of the whole pass is consistent: bracketed non-blank text, context from the window before its position, key resolved in that context |
| Normalizer.ClearBlankSpan | app/api/upload/route.ts:114-124 | the in-place writes for a blank span leave the span's runs with the blank-span texts and every other run untouched; the clearing of runs between is never reached, since a blank span lies in one run |
| Normalizer.TagSpan | app/api/upload/route.ts:154-160 | the in-place writes for a real span put the tagged text in the first run, empty the rest of the span, and touch no other run |
| Normalizer.SkipRun | app/api/upload/route.ts:66-69 | when the cursor has no span, the texts are left as they are and agree with the step |
| Normalizer.ApplyBlankSpan | app/api/upload/route.ts:109-127 | a blank span is written over the runs it crosses and the cursor moves past its closing run; in practice that is always one run (`BlankSpanInOneRun`) |
| Normalizer.ApplyRealSpan | app/api/upload/route.ts:130-171 | a real span is written over its runs, and the entry pushed has the cleaned raw text, the resolved key, the run's offset and the context |
| Normalizer.ApplyStep | app/api/upload/route.ts:62-172 | one loop iteration on the mutable texts is the step: runs before the cursor and after the span keep their current texts |
| Normalizer.LoopBody | app/api/upload/route.ts:62-172 | one loop iteration keeps the invariant: the texts fixed so far, followed by the rest of the pass, are the texts of the whole pass, and likewise for entries |
| Normalizer.NormalizeRuns | app/api/upload/route.ts:58-172 | the `while` loop over runs computes exactly the texts and entries of the pass, one text per run and at most one entry per run |
| Rebuild.ReplaceFromIsSplice | app/api/upload/route.ts:178-184 | replacing runs from the last back to the first by slicing gives the left-to-right splice: unchanged text between runs, each run replaced by its new match |
| Rebuild.RebuildXml | app/api/upload/route.ts:175-184 | the backward rebuild loop produces exactly the left-to-right assembly of the document |
| Rebuild.NewFullOfPlain | app/api/upload/route.ts:180 | a run whose text has no reserved character is rebuilt as the text it was scanned from |
| Rebuild.AssembleOriginal | app/api/upload/route.ts:175-184 | rebuilding with every run's own text gives the document back when no run text holds a reserved character |
| Rebuild.DoubleEscape | app/api/upload/route.ts:180 | an entity already in a run's text is escaped again: `&name;` comes back as `&amp;name;` |
| XmlEscape.ReplaceChainIsPerCharacter | app/api/upload/route.ts:201-206 | the five global replacements in their order equal replacing each character by its entity |
| XmlEscape.EscapeXml | app/api/upload/route.ts:200-207 | decoding the five entities in the escaped text gives the input back |
| XmlEscape.EscapeXmlOutput | app/api/upload/route.ts:200-207 | the escaped text holds no `<`, `>`, `"` or `'`, every `&` starts an entity, and text without reserved characters is unchanged |
| Dedup.KeepFirst | app/api/upload/route.ts:191-196 | the kept entries have pairwise distinct keys, all come from the input, and every input key is among them |
| Dedup.KeepFirstFromKeeps | app/api/upload/route.ts:192-194 | starting from keys already seen, the loop keeps distinct keys, none already seen, covering every other input key |
| Dedup.KeepFirstIsFirstOccurrences | app/api/upload/route.ts:191-196 | the insertion loop keeps exactly the first element of every key, in input order |
| Dedup.KeepFirstLoop | app/api/upload/route.ts:191-194 | the `Map` loop with `has`/`set` keeps what the first-occurrence filter keeps |
| Dedup.KeepFirstFromKeepsOrder | app/api/upload/route.ts:190-196 | keeping first occurrences keeps any strict order the input has, so the result is in position order |
| UploadDocx.NormalizeDocument | app/api/upload/route.ts:28-197 | the rebuilt XML is the document with each run's text replaced by the pass's escaped text; the placeholders are the first one found for each key, in the order found; so they have distinct keys, cover every key found, are in increasing document position, are consistent (each context inferred from the window before its position), sit at runs holding `[`, and are no more than the runs |
| UploadDocx.NormalizeDocumentXml | app/api/upload/route.ts:33-196 | the code's loops compute the same document and placeholder list as `NormalizeDocument` |
| UploadDocx.PlainDocumentUnchanged | app/api/upload/route.ts:28-197 | a document with no `[` and no reserved character in any run comes back unchanged, with no placeholders |
| LegacyUpload.TokenEnd | app/api/upload/route.js:23 | a match at `p` is `[`, at least one character other than `]`, then `]`; there is none exactly when no such `]` follows a `[` at `p` |
| LegacyUpload.MatchSpansFrom | app/api/upload/route.js:23 | the global match takes the leftmost match and resumes after it; every span is a match, the spans are in order without overlap, no match start is skipped except inside an earlier match, and there are none exactly when no position starts a match |
| LegacyUpload.SpansResultUnique | app/api/upload/route.js:23 | those properties fix the list of spans: two lists that both have them are equal |
| LegacyUpload.MatchAll | app/api/upload/route.js:23 | the result is the list of the leftmost non-overlapping matches in order; every matched string is a bracket token occurring in the text; the list is empty (the `null` case) exactly when nothing matches |
| LegacyUpload.MatchListUnique | app/api/upload/route.js:23 | there is only one list of leftmost non-overlapping matches, so `MatchAll` is determined by its contract |
| LegacyUpload.Select | app/api/upload/route.js:24 | `filter` keeps exactly the elements satisfying the test, never more than the input |
| LegacyUpload.SelectConcat | app/api/upload/route.js:24 | `filter` keeps order and repetitions: filtering a concatenation filters each part |
| LegacyUpload.SelectSingle | app/api/upload/route.js:24 | a one-element list keeps its element exactly when the test passes |
| LegacyUpload.SelectDistinct | app/api/upload/route.js:24 | filtering a repetition-free list keeps it repetition-free |
| LegacyUpload.KeepOnTokens | app/api/upload/route.js:24 | on a matched token the trim and length tests always pass, so the filter drops exactly the underscore-only tokens |
| LegacyUpload.ExtractPlaceholders | app/api/upload/route.js:23-24 | the result has no repetition, holds only non-blank tokens that occur in the text and were matched, and holds every matched non-blank token |
| LegacyUpload.ExtractInFirstOccurrenceOrder | app/api/upload/route.js:23-24 | the result is the first occurrences of the matches, in order, with the blanks removed |
| FillMapping.CleanKey | app/api/fill/route.js:24 | a cleaned key is one slice of the bracket-free key with only white space cut away on either side; it holds no bracket and does not start or end with white space |
| FillMapping.CleanKeyKeepsContent | app/api/fill/route.js:24 | every non-space, non-bracket character of the key stays, in order |
| FillMapping.CleanKeyIdempotent | app/api/fill/route.js:24 | cleaning a cleaned key changes nothing |
| FillMapping.CleanKeyOfBracketed | app/api/fill/route.js:24 | `[name]` cleans to the same key as `name` |
| FillMapping.Assign | app/api/fill/route.js:22-26 | the object's keys are exactly the cleaned keys, each holding the value of the last entry that cleans to it |
| FillMapping.CleanMapping | app/api/fill/route.js:22-26 | the data has exactly the cleaned keys, and a later entry wins over an earlier one with the same cleaned key |
| FillMapping.CleanMappingLoop | app/api/fill/route.js:22-26 | the `for … of` loop writing into an object builds exactly `CleanMapping` |

## Left out

- The HTTP handlers (`POST` in all three files), form parsing, the file system, `PizZip`, `mammoth`, `Docxtemplater` and the client components are not part of this model. The document arrives as the text of `word/document.xml`. The plain text from `mammoth.extractRawText` is a parameter, and so is the mapping from the request body.
- The error thrown when `word/document.xml` is missing is an archive-level concern and is left out. Given the XML text, the code has no other error path: with no runs it returns the document unchanged and an empty list, and so does the model.
- Strings are sequences of code points, while JavaScript counts UTF-16 code units. Offsets and the 400-character window differ only for characters outside the Basic Multilingual Plane.
- `toLowerCase` is modelled for ASCII letters only. Only the ASCII words `investor`, `company`, `name`, `title` and the tag `<w:t` are compared after lower-casing.
- The mapping of the fill route is given as a sequence of entries in `Object.entries` order. The key-ordering rules of JavaScript objects and the special key `__proto__` are not modelled.
- Text.CollapseTrim: the function carries no contract of its own. What it does is stated by `CollapseTrimCleans`, `CollapseJoin` and `CollapseTrimJoin`.
- Normalizer.Pass: its contract states only the lengths of its result. What it computes is stated by `StepWithoutSpan`, `StepBlankSpan`, `StepRealSpan` and the pass lemmas.
- Normalizer.InferContext: the function carries no contract of its own. Its precedence is stated by `InferContextPrecedence`, and its window by the contract of `Window`.
- Normalizer.ResolveKey: the function carries no contract of its own. Its behaviour is stated case by case by `ResolveKeyTable`, and by `ResolveKeyRenamesOnlyNameAndTitle`.
- Dedup.KeepFirstFrom: its contract states only the length bound. What it keeps is stated by `KeepFirstFromKeeps`.
- Rebuild.ReplaceFrom: the branch that skips a run which no longer fits in the document does not exist in the code. `ReplaceFromIsSplice` shows that it is never taken for scanned runs.
- XmlEscape.EscapeXml: `Unescape` is this model's reference decoder for the five entities. It is not code of the application.

=== FILE: dedup.dfy ===
/**
  De-duplication that keeps the first element seen for each key and preserves
  order: the `uniqueMap` loop of app/api/upload/route.ts (a `Map` filled only
  when the key is absent, read back in insertion order) and the
  `[...new Set(...)]` of app/api/upload/route.js.
 */
module Dedup {

  /** The keys of the elements of `xs`. */
  function Keys<T, K>(xs: seq<T>, key: T -> K): set<K> {
    if |xs| == 0 then {} else {key(xs[0])} + Keys(xs[1..], key)
  }

  lemma {:induction false} KeysMembership<T, K>(xs: seq<T>, key: T -> K, k: K)
    ensures k in Keys(xs, key) <==> exists m :: 0 <= m < |xs| && key(xs[m]) == k
  {
    if |xs| > 0 {
      KeysMembership(xs[1..], key, k);
      if exists m :: 0 <= m < |xs| && key(xs[m]) == k {
        var m :| 0 <= m < |xs| && key(xs[m]) == k;
        if m > 0 {
          assert key(xs[1..][m - 1]) == k;
        }
      }
      if exists m :: 0 <= m < |xs[1..]| && key(xs[1..][m]) == k {
        var m :| 0 <= m < |xs[1..]| && key(xs[1..][m]) == k;
        assert key(xs[m + 1]) == k;
      }
    }
  }

  lemma {:induction false} KeysConcat<T, K>(a: seq<T>, b: seq<T>, key: T -> K)
    ensures Keys(a + b, key) == Keys(a, key) + Keys(b, key)
  {
    if |a| == 0 {
      assert a + b == b;
    } else {
      assert (a + b)[0] == a[0];
      assert (a + b)[1..] == a[1..] + b;
      KeysConcat(a[1..], b, key);
    }
  }

  /** No element before position `k` has the key of `xs[k]`. */
  predicate FirstOfKey<T, K(==)>(xs: seq<T>, key: T -> K, k: nat)
    requires k < |xs|
  {
    forall m :: 0 <= m < k ==> key(xs[m]) != key(xs[k])
  }

  /**
    The reference reading: the elements that are the first of their key, in
    their original order.
   */
  function FirstOccurrences<T, K(==)>(xs: seq<T>, key: T -> K): seq<T>
    decreases |xs|
  {
    if |xs| == 0 then []
    else
      var last := |xs| - 1;
      FirstOccurrences(xs[..last], key) + (if FirstOfKey(xs, key, last) then [xs[last]] else [])
  }

  /**
    The insertion loop: walk `xs` in order and keep an element only when its key
    is not in `seen` yet.
   */
  function KeepFirstFrom<T, K(==)>(xs: seq<T>, key: T -> K, seen: set<K>): (r: seq<T>)
    ensures |r| <= |xs|
  {
    if |xs| == 0 then []
    else if key(xs[0]) in seen then KeepFirstFrom(xs[1..], key, seen)
    else [xs[0]] + KeepFirstFrom(xs[1..], key, seen + {key(xs[0])})
  }

  /**
    What the insertion loop keeps: elements of `xs` with pairwise distinct keys,
    none of them already in `seen`, and between them every key of `xs` that was
    not in `seen`.
   */
  lemma {:induction false} KeepFirstFromKeeps<T, K>(xs: seq<T>, key: T -> K, seen: set<K>)
    ensures var r := KeepFirstFrom(xs, key, seen);
      && (forall a, b :: 0 <= a < b < |r| ==> key(r[a]) != key(r[b]))
      && (forall y :: y in r ==> y in xs && key(y) !in seen)
      && Keys(r, key) == Keys(xs, key) - seen
    decreases |xs|
  {
    if |xs| > 0 {
      if key(xs[0]) in seen {
        KeepFirstFromKeeps(xs[1..], key, seen);
      } else {
        var rest := KeepFirstFrom(xs[1..], key, seen + {key(xs[0])});
        KeepFirstFromKeeps(xs[1..], key, seen + {key(xs[0])});
        var r := [xs[0]] + rest;
        assert r[1..] == rest;
        assert forall b :: 1 <= b < |r| ==> r[b] in rest;
      }
    }
  }

  /** `Array.from(uniqueMap.values())` after the loop over `xs`. */
  function KeepFirst<T, K(==)>(xs: seq<T>, key: T -> K): (r: seq<T>)
    ensures forall a, b :: 0 <= a < b < |r| ==> key(r[a]) != key(r[b])
    ensures forall y :: y in r ==> y in xs
    ensures Keys(r, key) == Keys(xs, key)
    ensures |r| <= |xs|
  {
    KeepFirstFromKeeps(xs, key, {});
    KeepFirstFrom(xs, key, {})
  }

  lemma {:induction false} KeepFirstFromSnoc<T, K>(xs: seq<T>, x: T, key: T -> K, seen: set<K>)
    ensures KeepFirstFrom(xs + [x], key, seen)
         == KeepFirstFrom(xs, key, seen) + (if key(x) in seen + Keys(xs, key) then [] else [x])
    decreases |xs|
  {
    if |xs| == 0 {
      assert xs + [x] == [x];
      assert [x][1..] == [];
    } else {
      assert (xs + [x])[0] == xs[0];
      assert (xs + [x])[1..] == xs[1..] + [x];
      if key(xs[0]) in seen {
        KeepFirstFromSnoc(xs[1..], x, key, seen);
      } else {
        KeepFirstFromSnoc(xs[1..], x, key, seen + {key(xs[0])});
      }
    }
  }

  /** The insertion loop keeps exactly the first occurrence of every key, in order. */
  lemma {:induction false} KeepFirstIsFirstOccurrences<T, K>(xs: seq<T>, key: T -> K)
    ensures KeepFirst(xs, key) == FirstOccurrences(xs, key)
    decreases |xs|
  {
    if |xs| > 0 {
      var last := |xs| - 1;
      var init := xs[..last];
      assert xs == init + [xs[last]];
      KeepFirstIsFirstOccurrences(init, key);
      KeepFirstFromSnoc(init, xs[last], key, {});
      KeysMembership(init, key, key(xs[last]));
      assert FirstOfKey(xs, key, last) <==> key(xs[last]) !in Keys(init, key) by {
        assert forall m :: 0 <= m < last ==> init[m] == xs[m];
      }
    }
  }

  lemma KeysOfPrefix<T, K>(xs: seq<T>, key: T -> K, i: nat)
    requires i < |xs|
    ensures Keys(xs[..i + 1], key) == Keys(xs[..i], key) + {key(xs[i])}
  {
    assert xs[..i + 1] == xs[..i] + [xs[i]];
    KeysConcat(xs[..i], [xs[i]], key);
    assert [xs[i]][1..] == [];
  }

  /** One iteration of the insertion loop keeps its invariants. */
  lemma KeepFirstLoopStep<T, K>(xs: seq<T>, key: T -> K, i: nat, kept: seq<T>, seen: set<K>, kept2: seq<T>, seen2: set<K>)
    requires i < |xs| && seen == Keys(xs[..i], key)
    requires kept + KeepFirstFrom(xs[i..], key, seen) == KeepFirst(xs, key)
    requires key(xs[i]) in seen ==> kept2 == kept && seen2 == seen
    requires key(xs[i]) !in seen ==> kept2 == kept + [xs[i]] && seen2 == seen + {key(xs[i])}
    ensures seen2 == Keys(xs[..i + 1], key)
    ensures kept2 + KeepFirstFrom(xs[i + 1..], key, seen2) == KeepFirst(xs, key)
  {
    KeysOfPrefix(xs, key, i);
    assert xs[i..][0] == xs[i] && xs[i..][1..] == xs[i + 1..];
    if key(xs[i]) !in seen {
      var rest := KeepFirstFrom(xs[i + 1..], key, seen2);
      assert KeepFirstFrom(xs[i..], key, seen) == [xs[i]] + rest;
      assert kept + ([xs[i]] + rest) == (kept + [xs[i]]) + rest;
    }
  }

  /**
    The loop as the code writes it: a set of the keys already in the map, and
    the values in insertion order. It keeps exactly what `KeepFirst` keeps.
   */
  method KeepFirstLoop<T, K(==)>(xs: seq<T>, key: T -> K) returns (r: seq<T>)
    ensures r == KeepFirst(xs, key)
  {
    r := [];
    var seen: set<K> := {};
    var i := 0;
    assert xs[..0] == [] && xs[0..] == xs;
    while i < |xs|
      invariant i <= |xs|
      invariant seen == Keys(xs[..i], key)
      invariant r + KeepFirstFrom(xs[i..], key, seen) == KeepFirst(xs, key)
    {
      var x := xs[i];
      ghost var kept, seen0 := r, seen;
      if key(x) !in seen {
        r := r + [x];
        seen := seen + {key(x)};
      }
      KeepFirstLoopStep(xs, key, i, kept, seen0, r, seen);
      i := i + 1;
    }
    assert xs[i..] == [];
  }

  /** `rank` strictly increases along `xs`. */
  ghost predicate Increasing<T>(xs: seq<T>, rank: T -> int) {
    forall a, b :: 0 <= a < b < |xs| ==> rank(xs[a]) < rank(xs[b])
  }

  lemma HeadBelowTail<T>(xs: seq<T>, rank: T -> int)
    requires |xs| > 0 && Increasing(xs, rank)
    ensures Increasing(xs[1..], rank)
    ensures forall y :: y in xs[1..] ==> rank(xs[0]) < rank(y)
  {
    forall y | y in xs[1..]
      ensures rank(xs[0]) < rank(y)
    {
      var m :| 0 <= m < |xs[1..]| && xs[1..][m] == y;
      assert xs[m + 1] == y;
    }
    assert forall a :: 0 <= a < |xs[1..]| ==> xs[1..][a] == xs[a + 1];
  }

  lemma IncreasingCons<T>(x: T, rest: seq<T>, rank: T -> int)
    requires Increasing(rest, rank)
    requires forall y :: y in rest ==> rank(x) < rank(y)
    ensures Increasing([x] + rest, rank)
  {
    var r := [x] + rest;
    forall a, b | 0 <= a < b < |r|
      ensures rank(r[a]) < rank(r[b])
    {
      assert r[b] == rest[b - 1];
      if a > 0 {
        assert r[a] == rest[a - 1];
      }
    }
  }

  /** Keeping first occurrences preserves any strict order the input has. */
  lemma {:induction false} KeepFirstFromKeepsOrder<T, K>(xs: seq<T>, key: T -> K, seen: set<K>, rank: T -> int)
    requires Increasing(xs, rank)
    ensures Increasing(KeepFirstFrom(xs, key, seen), rank)
  {
    if |xs| > 0 {
      var tail := xs[1..];
      HeadBelowTail(xs, rank);
      if key(xs[0]) in seen {
        KeepFirstFromKeepsOrder(tail, key, seen, rank);
        assert KeepFirstFrom(xs, key, seen) == KeepFirstFrom(tail, key, seen);
      } else {
        var seen' := seen + {key(xs[0])};
        KeepFirstFromKeepsOrder(tail, key, seen', rank);
        var rest := KeepFirstFrom(tail, key, seen');
        KeepFirstFromKeeps(tail, key, seen');
        assert KeepFirstFrom(xs, key, seen) == [xs[0]] + rest;
        IncreasingCons(xs[0], rest, rank);
      }
    }
  }
}

=== FILE: fill_mapping.dfy ===
/**
  The key cleaning of app/api/fill/route.js: every key of the mapping the client
  sends loses its square brackets and its surrounding white space, and the
  cleaned keys with their values become the data handed to the template engine.
 */
module FillMapping {
  import opened Text

  predicate NotBracket(c: char) { c != '[' && c != ']' }

  /**
    `key.replace(/\[|\]/g, "").trim()`: the key without any `[` or `]`, trimmed.
    The result is one slice of the bracket-free key, with only white space cut
    away on either side, so every character between keeps its place; it holds no
    bracket and does not start or end with white space.
   */
  function CleanKey(key: string): (r: string)
    ensures TrimmedFrom(r, Filter(key, NotBracket))
    ensures forall k :: 0 <= k < |r| ==> r[k] != '[' && r[k] != ']'
    ensures |r| > 0 ==> !IsSpace(r[0]) && !IsSpace(r[|r| - 1])
  {
    var f := Filter(key, NotBracket);
    TrimKeepsFilter(f, NotBracket);
    CleanKeySlice(f);
    Trim(f)
  }

  /** The trimmed string is a slice of the string with only white space cut away on either side. */
  lemma CleanKeySlice(f: string)
    ensures TrimmedFrom(Trim(f), f)
  {
    var r := Trim(f);
  }

  /** Trimming a string whose characters all pass `keep` leaves characters that all pass it. */
  lemma TrimKeepsFilter(s: string, keep: char -> bool)
    requires forall k :: 0 <= k < |s| ==> keep(s[k])
    ensures forall k :: 0 <= k < |Trim(s)| ==> keep(Trim(s)[k])
  {
    var a, b :| 0 <= a <= b <= |s| && Trim(s) == s[a..b] && AllSpaces(s[..a]) && AllSpaces(s[b..]);
    assert forall k :: 0 <= k < |Trim(s)| ==> Trim(s)[k] == s[a + k];
  }

  /** Cleaning removes brackets and white space at the ends only: every other character stays, in order. */
  lemma CleanKeyKeepsContent(key: string)
    ensures RemoveSpaces(CleanKey(key)) == RemoveSpaces(Filter(key, NotBracket))
  {
    RemoveSpacesOfTrim(Filter(key, NotBracket));
  }

  /** Cleaning a cleaned key changes nothing. */
  lemma CleanKeyIdempotent(key: string)
    ensures CleanKey(CleanKey(key)) == CleanKey(key)
  {
    var c := CleanKey(key);
    assert Filter(c, NotBracket) == c;
    TrimOfTrimmed(c);
  }

  /** A key sent in its bracketed form, `[Company Name]`, cleans to the same key as the bare name. */
  lemma CleanKeyOfBracketed(name: string)
    ensures CleanKey("[" + name + "]") == CleanKey(name)
  {
    var open, close := "[", "]";
    FilterConcat(open + name, close, NotBracket);
    FilterConcat(open, name, NotBracket);
    assert Filter(open, NotBracket) == "" && Filter(close, NotBracket) == "";
    assert Filter(open + name + close, NotBracket) == Filter(name, NotBracket);
  }

  /** The entry at `k` is the last one whose key `clean` sends where its key goes. */
  predicate LastOfKey<V>(entries: seq<(string, V)>, clean: string -> string, k: nat)
    requires k < |entries|
  {
    forall j :: k < j < |entries| ==> clean(entries[j].0) != clean(entries[k].0)
  }

  /**
    `data[clean(key)] = val` for every entry in order, starting from an empty
    object: the keys are exactly the cleaned keys and each holds the value of
    the last entry whose key cleans to it.
   */
  function Assign<V>(entries: seq<(string, V)>, clean: string -> string): (data: map<string, V>)
    ensures forall key :: key in data <==> exists k :: 0 <= k < |entries| && clean(entries[k].0) == key
    ensures forall k :: 0 <= k < |entries| && LastOfKey(entries, clean, k) ==>
      clean(entries[k].0) in data && data[clean(entries[k].0)] == entries[k].1
    decreases |entries|
  {
    if |entries| == 0 then map[]
    else
      var n := |entries| - 1;
      var prior := Assign(entries[..n], clean);
      var data := prior[clean(entries[n].0) := entries[n].1];
      AssignSnocKeys(entries, clean, prior, data);
      AssignSnocValues(entries, clean, prior, data);
      data
  }

  lemma AssignSnocKeys<V>(entries: seq<(string, V)>, clean: string -> string, prior: map<string, V>, data: map<string, V>)
    requires |entries| > 0
    requires var init := entries[..|entries| - 1];
      forall key :: key in prior <==> exists k :: 0 <= k < |init| && clean(init[k].0) == key
    requires data == prior[clean(entries[|entries| - 1].0) := entries[|entries| - 1].1]
    ensures forall key :: key in data <==> exists k :: 0 <= k < |entries| && clean(entries[k].0) == key
  {
    var n := |entries| - 1;
    var init := entries[..n];
    forall key | key in data
      ensures exists k :: 0 <= k < |entries| && clean(entries[k].0) == key
    {
      if key != clean(entries[n].0) {
        var k :| 0 <= k < |init| && clean(init[k].0) == key;
        assert init[k] == entries[k];
      }
    }
    forall key | exists k :: 0 <= k < |entries| && clean(entries[k].0) == key
      ensures key in data
    {
      var k :| 0 <= k < |entries| && clean(entries[k].0) == key;
      if k < n {
        assert init[k] == entries[k];
      }
    }
  }

  lemma AssignSnocValues<V>(entries: seq<(string, V)>, clean: string -> string, prior: map<string, V>, data: map<string, V>)
    requires |entries| > 0
    requires var init := entries[..|entries| - 1];
      forall k :: 0 <= k < |init| && LastOfKey(init, clean, k) ==> clean(init[k].0) in prior && prior[clean(init[k].0)] == init[k].1
    requires data == prior[clean(entries[|entries| - 1].0) := entries[|entries| - 1].1]
    ensures forall k :: 0 <= k < |entries| && LastOfKey(entries, clean, k) ==> data[clean(entries[k].0)] == entries[k].1
  {
    var n := |entries| - 1;
    var init := entries[..n];
    forall k | 0 <= k < |entries| && LastOfKey(entries, clean, k)
      ensures data[clean(entries[k].0)] == entries[k].1
    {
      if k < n {
        assert init[k] == entries[k];
        assert forall j :: k < j < n ==> init[j] == entries[j];
        assert LastOfKey(init, clean, k);
        assert clean(entries[k].0) != clean(entries[n].0);
      }
    }
  }

  /**
    The loop over the mapping's entries: `cleanData[newKey] = val` for every entry in order. The keys of
    the result are exactly the cleaned keys, and each holds the value of the
    last entry whose key cleans to it: `[Name]` and `Name` sent together land on
    one key, and the later one wins.
   */
  function CleanMapping<V>(entries: seq<(string, V)>): (data: map<string, V>)
    ensures forall key :: key in data <==> exists k :: 0 <= k < |entries| && CleanKey(entries[k].0) == key
    ensures forall k :: 0 <= k < |entries| && LastOfKey(entries, CleanKey, k) ==> data[CleanKey(entries[k].0)] == entries[k].1
  {
    Assign(entries, CleanKey)
  }

  /** Assigning one more entry extends the object built from the entries before it. */
  lemma AssignPrefix<V>(entries: seq<(string, V)>, clean: string -> string, i: nat)
    requires i < |entries|
    ensures Assign(entries[..i + 1], clean) == Assign(entries[..i], clean)[clean(entries[i].0) := entries[i].1]
  {
    assert entries[..i + 1][..i] == entries[..i];
  }

  /** The `for … of Object.entries(mapping)` loop as the code writes it, on a mutable object. */
  method CleanMappingLoop<V>(entries: seq<(string, V)>) returns (data: map<string, V>)
    ensures data == CleanMapping(entries)
  {
    data := map[];
    var i := 0;
    assert entries[..0] == [];
    while i < |entries|
      invariant i <= |entries|
      invariant data == Assign(entries[..i], CleanKey)
    {
      var newKey := CleanKey(entries[i].0);
      AssignPrefix(entries, CleanKey, i);
      data := data[newKey := entries[i].1];
      i := i + 1;
    }
    assert entries[..i] == entries;
  }
}

=== FILE: legacy_upload.dfy ===
/**
  The placeholder extraction of the older app/api/upload/route.js: every match of
  the global expression `\[[^\]]+\]` in the document's plain text, without
  duplicates, then without the tokens that are only underscores between brackets
  or are two characters or shorter once trimmed.
 */
module LegacyUpload {
  import opened Options
  import opened Text
  import opened Dedup

  /** A string the expression `\[[^\]]+\]` matches as a whole. */
  predicate IsToken(s: string) {
    |s| >= 3 && s[0] == '[' && s[|s| - 1] == ']' && forall k :: 0 < k < |s| - 1 ==> s[k] != ']'
  }

  /** `/^\[_+\]$/`: one or more underscores between brackets and nothing else. */
  predicate IsUnderscoreToken(s: string) {
    |s| >= 3 && s[0] == '[' && s[|s| - 1] == ']' && forall k :: 0 < k < |s| - 1 ==> s[k] == '_'
  }

  /** A `]` at `q`, after `[` at `p` with at least one character between and no `]` in between. */
  predicate ClosesAt(text: string, p: nat, q: nat) {
    p + 1 < q < |text| && text[q] == ']' && forall c :: p < c < q ==> text[c] != ']'
  }

  /**
    The match of the expression tried at exactly `p`, as the offset just after
    it: a `[`, then as many characters other than `]` as possible, at least one,
    then a `]`.
   */
  function TokenEnd(text: string, p: nat): (r: Option<nat>)
    ensures r.Some? ==> p + 3 <= r.value <= |text| && IsToken(text[p..r.value])
    ensures r.None? <==> !(p < |text| && text[p] == '[' && exists q :: ClosesAt(text, p, q))
  {
    if p + 1 < |text| && text[p] == '[' && text[p + 1] != ']' then
      match IndexOfFrom(text, ']', p + 1)
      case None => None
      case Some(q) =>
        assert ClosesAt(text, p, q);
        Some(q + 1)
    else
      assert forall q :: ClosesAt(text, p, q) ==> p + 1 < |text| && text[p + 1] != ']';
      None
  }

  /** Every position from `from` on where a match starts lies inside one of the tokens found. */
  ghost predicate TokensCover(text: string, from: nat, spans: seq<(nat, nat)>) {
    forall p :: from <= p < |text| && TokenEnd(text, p).Some? ==>
      exists k :: 0 <= k < |spans| && spans[k].0 <= p < spans[k].1
  }

  /**
    What `MatchSpansFrom` promises about the spans it returns: each is a match,
    each begins at or after the end of the one before it, and together they
    cover every position from `from` on where a match starts.
   */
  ghost predicate SpansResult(text: string, from: nat, spans: seq<(nat, nat)>) {
    && (forall k :: 0 <= k < |spans| ==> from <= spans[k].0 && TokenEnd(text, spans[k].0) == Some(spans[k].1))
    && (forall a, b :: 0 <= a < b < |spans| ==> spans[a].1 <= spans[b].0)
    && TokensCover(text, from, spans)
    && (spans == [] <==> forall p :: from <= p < |text| ==> TokenEnd(text, p).None?)
  }

  lemma SpansSkip(text: string, from: nat, rest: seq<(nat, nat)>)
    requires from < |text| && TokenEnd(text, from).None?
    requires SpansResult(text, from + 1, rest)
    ensures SpansResult(text, from, rest)
  {
    forall p | from <= p < |text| && TokenEnd(text, p).Some?
      ensures exists k :: 0 <= k < |rest| && rest[k].0 <= p < rest[k].1
    {
      assert p != from;
    }
  }

  lemma SpansTakeCovers(text: string, from: nat, e: nat, rest: seq<(nat, nat)>)
    requires from < e && TokenEnd(text, from) == Some(e)
    requires TokensCover(text, e, rest)
    ensures TokensCover(text, from, [(from, e)] + rest)
  {
    var spans := [(from, e)] + rest;
    forall p | from <= p < |text| && TokenEnd(text, p).Some?
      ensures exists k :: 0 <= k < |spans| && spans[k].0 <= p < spans[k].1
    {
      if p >= e {
        var k :| 0 <= k < |rest| && rest[k].0 <= p < rest[k].1;
        assert spans[k + 1] == rest[k];
      } else {
        assert spans[0].0 <= p < spans[0].1;
      }
    }
  }

  lemma SpansTakeMatches(text: string, from: nat, e: nat, rest: seq<(nat, nat)>)
    requires from < e && TokenEnd(text, from) == Some(e)
    requires forall k :: 0 <= k < |rest| ==> e <= rest[k].0 && TokenEnd(text, rest[k].0) == Some(rest[k].1)
    ensures forall k :: 0 <= k < |[(from, e)] + rest| ==>
      from <= ([(from, e)] + rest)[k].0 && TokenEnd(text, ([(from, e)] + rest)[k].0) == Some(([(from, e)] + rest)[k].1)
  {
    var spans := [(from, e)] + rest;
    forall k | 0 <= k < |spans|
      ensures from <= spans[k].0 && TokenEnd(text, spans[k].0) == Some(spans[k].1)
    {
      if k > 0 {
        assert spans[k] == rest[k - 1];
      }
    }
  }

  lemma SpansTakeOrdered(from: nat, e: nat, rest: seq<(nat, nat)>)
    requires forall k :: 0 <= k < |rest| ==> e <= rest[k].0
    requires forall a, b :: 0 <= a < b < |rest| ==> rest[a].1 <= rest[b].0
    ensures forall a, b :: 0 <= a < b < |[(from, e)] + rest| ==> ([(from, e)] + rest)[a].1 <= ([(from, e)] + rest)[b].0
  {
    var spans := [(from, e)] + rest;
    forall a, b | 0 <= a < b < |spans|
      ensures spans[a].1 <= spans[b].0
    {
      assert spans[b] == rest[b - 1];
      if a > 0 {
        assert spans[a] == rest[a - 1];
      }
    }
  }

  lemma SpansTake(text: string, from: nat, e: nat, rest: seq<(nat, nat)>)
    requires from < |text| && from < e && TokenEnd(text, from) == Some(e)
    requires SpansResult(text, e, rest)
    ensures SpansResult(text, from, [(from, e)] + rest)
  {
    SpansTakeMatches(text, from, e, rest);
    SpansTakeOrdered(from, e, rest);
    SpansTakeCovers(text, from, e, rest);
    assert !(forall p :: from <= p < |text| ==> TokenEnd(text, p).None?) by {
      assert TokenEnd(text, from).Some?;
    }
  }

  /**
    `text.match(/\[[^\]]+\]/g)` from offset `from`, as the offsets of the
    matches: the leftmost match is taken and the search resumes after it. Every
    span is a match, no match start is skipped except inside an earlier match,
    and there are no spans exactly when no position starts a match.
   */
  function MatchSpansFrom(text: string, from: nat): (spans: seq<(nat, nat)>)
    ensures SpansResult(text, from, spans)
    decreases |text| - from
  {
    if from >= |text| then []
    else match TokenEnd(text, from)
      case None =>
        var rest := MatchSpansFrom(text, from + 1);
        SpansSkip(text, from, rest);
        rest
      case Some(e) =>
        var rest := MatchSpansFrom(text, e);
        SpansTake(text, from, e, rest);
        [(from, e)] + rest
  }

  /**
    The promise of `MatchSpansFrom` pins its result down: two span lists that
    both keep it are the same list, so the spans are exactly the successive
    leftmost matches.
   */
  lemma {:induction false} SpansResultUnique(text: string, from: nat, a: seq<(nat, nat)>, b: seq<(nat, nat)>)
    requires SpansResult(text, from, a) && SpansResult(text, from, b)
    ensures a == b
    decreases |text| - from
  {
    if a != [] && b != [] {
      SameFirstSpan(text, from, a, b);
      SpansResultRest(text, from, a);
      SpansResultRest(text, from, b);
      SpansResultUnique(text, a[0].1, a[1..], b[1..]);
      SameHeadSameTail(a, b);
    } else {
      assert a == [] <==> b == [];
    }
  }

  lemma SameHeadSameTail(a: seq<(nat, nat)>, b: seq<(nat, nat)>)
    requires a != [] && b != [] && a[0] == b[0] && a[1..] == b[1..]
    ensures a == b
  {
    assert a == [a[0]] + a[1..] && b == [b[0]] + b[1..];
  }

  /** Two span lists that keep the promise start with the same span. */
  lemma SameFirstSpan(text: string, from: nat, a: seq<(nat, nat)>, b: seq<(nat, nat)>)
    requires SpansResult(text, from, a) && SpansResult(text, from, b) && a != [] && b != []
    ensures a[0] == b[0] && a[0].1 <= |text|
  {
    FirstSpanIsLeftmost(text, from, a);
    FirstSpanIsLeftmost(text, from, b);
    assert TokenEnd(text, a[0].0) == Some(a[0].1);
    assert TokenEnd(text, b[0].0) == Some(b[0].1);
  }

  /** The first span starts at the first position from `from` on where a match starts. */
  lemma FirstSpanIsLeftmost(text: string, from: nat, spans: seq<(nat, nat)>)
    requires SpansResult(text, from, spans) && spans != []
    ensures forall p :: from <= p < spans[0].0 ==> TokenEnd(text, p).None?
  {
    forall p | from <= p < spans[0].0
      ensures TokenEnd(text, p).None?
    {
      if p < |text| && TokenEnd(text, p).Some? {
        CoveredFromFirst(text, from, spans, p);
      }
    }
  }

  /** A position where a match starts lies at or after the first span's start. */
  lemma CoveredFromFirst(text: string, from: nat, spans: seq<(nat, nat)>, p: nat)
    requires SpansResult(text, from, spans) && spans != []
    requires from <= p < |text| && TokenEnd(text, p).Some?
    ensures spans[0].0 <= p
  {
    var k :| 0 <= k < |spans| && spans[k].0 <= p < spans[k].1;
    if k > 0 {
      assert spans[0].1 <= spans[k].0;
      assert TokenEnd(text, spans[0].0) == Some(spans[0].1);
    }
  }

  /** Past the first span, the remaining spans keep the promise from where the first one ends. */
  lemma SpansResultRest(text: string, from: nat, spans: seq<(nat, nat)>)
    requires SpansResult(text, from, spans) && spans != []
    ensures from < spans[0].1
    ensures SpansResult(text, spans[0].1, spans[1..])
  {
    assert TokenEnd(text, spans[0].0) == Some(spans[0].1);
    RestMatches(text, spans);
    RestCovers(text, from, spans);
    if spans[1..] != [] {
      assert TokenEnd(text, spans[1..][0].0).Some?;
    }
  }

  lemma RestMatches(text: string, spans: seq<(nat, nat)>)
    requires spans != []
    requires forall k :: 0 <= k < |spans| ==> TokenEnd(text, spans[k].0) == Some(spans[k].1)
    requires forall a, b :: 0 <= a < b < |spans| ==> spans[a].1 <= spans[b].0
    ensures forall k :: 0 <= k < |spans[1..]| ==> spans[0].1 <= spans[1..][k].0 && TokenEnd(text, spans[1..][k].0) == Some(spans[1..][k].1)
    ensures forall a, b :: 0 <= a < b < |spans[1..]| ==> spans[1..][a].1 <= spans[1..][b].0
  {
    var rest := spans[1..];
    forall k | 0 <= k < |rest|
      ensures spans[0].1 <= rest[k].0 && TokenEnd(text, rest[k].0) == Some(rest[k].1)
    {
      assert rest[k] == spans[k + 1];
    }
    forall x, y | 0 <= x < y < |rest|
      ensures rest[x].1 <= rest[y].0
    {
      assert rest[x] == spans[x + 1] && rest[y] == spans[y + 1];
    }
  }

  lemma RestCovers(text: string, from: nat, spans: seq<(nat, nat)>)
    requires spans != [] && from <= spans[0].0 < spans[0].1
    requires TokensCover(text, from, spans)
    ensures TokensCover(text, spans[0].1, spans[1..])
    ensures spans[1..] == [] ==> forall p :: spans[0].1 <= p < |text| ==> TokenEnd(text, p).None?
  {
    var e := spans[0].1;
    var rest := spans[1..];
    forall p | e <= p < |text| && TokenEnd(text, p).Some?
      ensures exists k :: 0 <= k < |rest| && rest[k].0 <= p < rest[k].1
    {
      var k :| 0 <= k < |spans| && spans[k].0 <= p < spans[k].1;
      assert rest[k - 1] == spans[k];
    }
  }

  /** The matched strings, in the order they occur. */
  function Tokens(text: string, spans: seq<(nat, nat)>): (tokens: seq<string>)
    requires forall k :: 0 <= k < |spans| ==> spans[k].0 <= spans[k].1 <= |text|
    ensures |tokens| == |spans|
    ensures forall k :: 0 <= k < |spans| ==> tokens[k] == text[spans[k].0..spans[k].1]
  {
    seq(|spans|, k requires 0 <= k < |spans| => text[spans[k].0..spans[k].1])
  }

  /**
    `tokens` are the texts of the successive matches of the expression: the
    leftmost match, then the leftmost one from where it ends, and so on.
   */
  ghost predicate IsMatchList(text: string, tokens: seq<string>) {
    exists spans: seq<(nat, nat)> :: SpansResult(text, 0, spans) && Bounded(text, spans) && tokens == Tokens(text, spans)
  }

  /** Every span lies inside the text. */
  predicate Bounded(text: string, spans: seq<(nat, nat)>) {
    forall k :: 0 <= k < |spans| ==> spans[k].0 <= spans[k].1 <= |text|
  }

  /**
    `text.match(/\[[^\]]+\]/g)`, with no match giving the empty list (what
    `new Set(null)` yields): the texts of the successive matches. Every result
    is a token that occurs in the text, and the list is empty exactly when no
    position starts a match.
   */
  function MatchAll(text: string): (tokens: seq<string>)
    ensures IsMatchList(text, tokens)
    ensures forall k :: 0 <= k < |tokens| ==> IsToken(tokens[k]) && Contains(text, tokens[k])
    ensures tokens == [] <==> forall p :: 0 <= p < |text| ==> TokenEnd(text, p).None?
  {
    var spans := MatchSpansFrom(text, 0);
    TokensOccur(text, spans);
    MatchListWitness(text, spans);
    Tokens(text, spans)
  }

  lemma MatchListWitness(text: string, spans: seq<(nat, nat)>)
    requires SpansResult(text, 0, spans) && Bounded(text, spans)
    ensures IsMatchList(text, Tokens(text, spans))
  {
  }

  /** There is only one list of successive matches, so `MatchAll` is pinned down by its contract. */
  lemma MatchListUnique(text: string, tokens: seq<string>, other: seq<string>)
    requires IsMatchList(text, tokens) && IsMatchList(text, other)
    ensures tokens == other
  {
    var a: seq<(nat, nat)> :| SpansResult(text, 0, a) && Bounded(text, a) && tokens == Tokens(text, a);
    var b: seq<(nat, nat)> :| SpansResult(text, 0, b) && Bounded(text, b) && other == Tokens(text, b);
    SpansResultUnique(text, 0, a, b);
  }

  lemma TokensOccur(text: string, spans: seq<(nat, nat)>)
    requires forall k :: 0 <= k < |spans| ==> TokenEnd(text, spans[k].0) == Some(spans[k].1)
    ensures forall k :: 0 <= k < |spans| ==> spans[k].0 <= spans[k].1 <= |text|
    ensures forall k :: 0 <= k < |spans| ==> IsToken(Tokens(text, spans)[k]) && Contains(text, Tokens(text, spans)[k])
  {
    assert forall k :: 0 <= k < |spans| ==> spans[k].0 <= spans[k].1 <= |text|;
    var tokens := Tokens(text, spans);
    forall k | 0 <= k < |spans|
      ensures IsToken(tokens[k]) && Contains(text, tokens[k])
    {
      assert OccursAt(text, tokens[k], spans[k].0);
    }
  }

  function Same(s: string): string { s }

  /** The `filter` test: the trimmed token is not `[_…_]` and is longer than two characters. */
  predicate Keep(p: string) {
    !IsUnderscoreToken(Trim(p)) && |Trim(p)| > 2
  }

  /** `xs.filter(keep)`. */
  function Select(xs: seq<string>, keep: string -> bool): (r: seq<string>)
    ensures forall y :: y in r <==> y in xs && keep(y)
    ensures |r| <= |xs|
  {
    if |xs| == 0 then []
    else (if keep(xs[0]) then [xs[0]] else []) + Select(xs[1..], keep)
  }

  /** `filter` keeps order and repetitions: filtering a concatenation filters each part. */
  lemma {:induction false} SelectConcat(a: seq<string>, b: seq<string>, keep: string -> bool)
    ensures Select(a + b, keep) == Select(a, keep) + Select(b, keep)
  {
    if |a| == 0 {
      assert a + b == b;
    } else {
      assert (a + b)[0] == a[0];
      assert (a + b)[1..] == a[1..] + b;
      SelectConcat(a[1..], b, keep);
    }
  }

  /** On one element `filter` keeps it exactly when it passes the test. */
  lemma SelectSingle(x: string, keep: string -> bool)
    ensures Select([x], keep) == if keep(x) then [x] else []
  {
    assert [x][1..] == [];
  }

  /** Filtering a list without repetitions leaves a list without repetitions. */
  lemma {:induction false} SelectDistinct(xs: seq<string>, keep: string -> bool)
    requires forall a, b :: 0 <= a < b < |xs| ==> xs[a] != xs[b]
    ensures forall a, b :: 0 <= a < b < |Select(xs, keep)| ==> Select(xs, keep)[a] != Select(xs, keep)[b]
  {
    if |xs| > 0 {
      var tail := xs[1..];
      assert forall a, b :: 0 <= a < b < |tail| ==> tail[a] != tail[b] by {
        forall a, b | 0 <= a < b < |tail|
          ensures tail[a] != tail[b]
        {
          assert tail[a] == xs[a + 1] && tail[b] == xs[b + 1];
        }
      }
      SelectDistinct(tail, keep);
      var rest := Select(tail, keep);
      assert xs[0] !in tail;
      if keep(xs[0]) {
        var r := [xs[0]] + rest;
        forall a, b | 0 <= a < b < |r|
          ensures r[a] != r[b]
        {
          assert r[b] == rest[b - 1] && r[b] in tail;
          if a > 0 {
            assert r[a] == rest[a - 1];
          }
        }
      }
    }
  }

  /**
    On a token, trimming changes nothing and the length test always passes, so
    the filter drops exactly the underscore-only tokens.
   */
  lemma KeepOnTokens(p: string)
    requires IsToken(p)
    ensures Keep(p) <==> !IsUnderscoreToken(p)
  {
    TrimOfTrimmed(p);
  }

  /**
    `extractPlaceholders`: the distinct tokens of the text that are not blanks, each
    once. Every token the expression matches and that is not a blank is listed.
   */
  function ExtractPlaceholders(text: string): (r: seq<string>)
    ensures forall a, b :: 0 <= a < b < |r| ==> r[a] != r[b]
    ensures forall y :: y in r ==> IsToken(y) && !IsUnderscoreToken(y) && Contains(text, y)
    ensures forall y :: y in r ==> y in MatchAll(text)
    ensures forall y :: y in MatchAll(text) && !IsUnderscoreToken(y) ==> y in r
  {
    var tokens := MatchAll(text);
    var unique := KeepFirst(tokens, Same);
    TokensKept(tokens, unique);
    SelectDistinct(unique, Keep);
    Select(unique, Keep)
  }

  /** Every token of the match list is kept by the de-duplication and the filter keeps exactly the non-blank ones. */
  lemma TokensKept(tokens: seq<string>, unique: seq<string>)
    requires forall k :: 0 <= k < |tokens| ==> IsToken(tokens[k])
    requires unique == KeepFirst(tokens, Same)
    ensures forall y :: y in unique ==> IsToken(y) && (Keep(y) <==> !IsUnderscoreToken(y))
    ensures forall y :: y in tokens ==> y in unique
  {
    forall y | y in unique
      ensures IsToken(y) && (Keep(y) <==> !IsUnderscoreToken(y))
    {
      KeepOnTokens(y);
    }
    forall y | y in tokens
      ensures y in unique
    {
      KeysMembership(tokens, Same, y);
      KeysMembership(unique, Same, y);
      var m :| 0 <= m < |unique| && Same(unique[m]) == y;
    }
  }

  /** The list is in the order of first occurrence: it is the first occurrences with the blanks taken out. */
  lemma ExtractInFirstOccurrenceOrder(text: string)
    ensures ExtractPlaceholders(text) == Select(FirstOccurrences(MatchAll(text), Same), Keep)
  {
    KeepFirstIsFirstOccurrences(MatchAll(text), Same);
  }
}

=== FILE: normalizer.dfy ===
/**
  The single-pass cursor of `normalizeDocxAndExtractPlaceholders`
  (app/api/upload/route.ts): at each run it looks for a `[`, finds the run that
  holds the closing `]`, drops blank spans, works out a company/investor context
  for the span, and rewrites the runs of the span so that it reads `{{Key}}`.
  The behaviour is the code's, including the places where it differs from what
  the comments describe (see `SpanText` and `Step`).
 */
module Normalizer {
  import opened Options
  import opened Text
  import opened RunScanner

  datatype Context = Company | Investor

  /** One entry of `placeholdersFound`. */
  datatype Placeholder = Placeholder(raw: string, key: string, position: nat, context: Option<Context>)

  /**
    A bracket span: the first `[` of run `start` sits at `openPos`, and the first
    `]` of run `endRun` at `closePos`.
   */
  datatype Span = Span(start: nat, openPos: nat, endRun: nat, closePos: nat)

  // ---------------------------------------------------------------- span detection

  /**
    The forward search of the inner `for (; j < matches.length; j++)` loop: the
    first run at or after `j` whose text holds a `]`.
   */
  function FindCloseRun(runs: seq<Run>, j: nat): (r: Option<nat>)
    ensures r.Some? ==> j <= r.value < |runs| && ']' in runs[r.value].text
    ensures r.Some? ==> forall k :: j <= k < r.value ==> ']' !in runs[k].text
    ensures r.None? <==> forall k :: j <= k < |runs| ==> ']' !in runs[k].text
    decreases |runs| - j
  {
    if j >= |runs| then None
    else if ']' in runs[j].text then Some(j)
    else FindCloseRun(runs, j + 1)
  }

  /** What a span found at run `i` satisfies. */
  predicate ValidSpan(runs: seq<Run>, s: Span) {
    && s.start <= s.endRun < |runs|
    && s.openPos < |runs[s.start].text|
    && runs[s.start].text[s.openPos] == '[' && '[' !in runs[s.start].text[..s.openPos]
    && s.closePos < |runs[s.endRun].text|
    && runs[s.endRun].text[s.closePos] == ']' && ']' !in runs[s.endRun].text[..s.closePos]
    && (forall k :: s.start <= k < s.endRun ==> ']' !in runs[k].text)
  }

  /**
    The bracket search at the cursor: the span that starts at run `i`, if any. There is none when
    run `i` has no `[`, or when neither run `i` nor any later run has a `]`.
    Otherwise the span opens at the first `[` of run `i` and closes at the first
    `]` of the first run from `i` on that has one: a `]` anywhere in run `i`
    closes the span there, even one that comes before the `[`.
   */
  function FindSpan(runs: seq<Run>, i: nat): (r: Option<Span>)
    requires i < |runs|
    ensures r.None? <==> '[' !in runs[i].text || forall k :: i <= k < |runs| ==> ']' !in runs[k].text
    ensures r.Some? ==> r.value.start == i && ValidSpan(runs, r.value)
  {
    var text := runs[i].text;
    match IndexOf(text, '[')
    case None => None
    case Some(openPos) =>
      match IndexOf(text, ']')
      case Some(closePos) => Some(Span(i, openPos, i, closePos))
      case None =>
        match FindCloseRun(runs, i + 1)
        case None => None
        case Some(j) => Some(Span(i, openPos, j, IndexOf(runs[j].text, ']').value))
  }

  /** The texts of `runs[a..b]`, concatenated. */
  function JoinTexts(runs: seq<Run>, a: nat, b: nat): string
    requires a <= b <= |runs|
    decreases b - a
  {
    if a == b then "" else runs[a].text + JoinTexts(runs, a + 1, b)
  }

  /** Joining one more run appends its text. */
  lemma {:induction false} JoinTextsSnoc(runs: seq<Run>, a: nat, b: nat)
    requires a <= b < |runs|
    ensures JoinTexts(runs, a, b + 1) == JoinTexts(runs, a, b) + runs[b].text
    decreases b - a
  {
    if a < b {
      JoinTextsSnoc(runs, a + 1, b);
    }
  }

  /**
    `spanText` as the code accumulates it. Within one run it is
    `text.substring(openPos + 1, closePos)`, whose arguments swap when the `]`
    comes first. Across runs it is the rest of the first run after `[`, then the
    runs strictly between (appended while searching), then once more every run
    after the first up to and including the whole closing run.
   */
  function SpanText(runs: seq<Run>, s: Span): string
    requires ValidSpan(runs, s)
  {
    var first := runs[s.start].text;
    if s.endRun == s.start then Substring(first, s.openPos + 1, s.closePos)
    else first[s.openPos + 1..] + JoinTexts(runs, s.start + 1, s.endRun) + JoinTexts(runs, s.start + 1, s.endRun + 1)
  }

  /**
    A span that crosses runs reads: the first run after its `[`, the runs
    strictly between, those same runs a second time, and then the whole closing
    run, its `]` and what follows it included.
   */
  lemma SpanTextCrossing(runs: seq<Run>, s: Span)
    requires ValidSpan(runs, s) && s.start < s.endRun
    ensures var middle := JoinTexts(runs, s.start + 1, s.endRun);
      SpanText(runs, s) == runs[s.start].text[s.openPos + 1..] + middle + middle + runs[s.endRun].text
  {
    var head := runs[s.start].text[s.openPos + 1..];
    var middle := JoinTexts(runs, s.start + 1, s.endRun);
    SpanTextAcross(runs, s);
    JoinTextsSnoc(runs, s.start + 1, s.endRun);
    ConcatAssociates(head + middle, middle, runs[s.endRun].text);
  }

  lemma SpanTextAcross(runs: seq<Run>, s: Span)
    requires ValidSpan(runs, s) && s.start < s.endRun
    ensures SpanText(runs, s) == runs[s.start].text[s.openPos + 1..] + JoinTexts(runs, s.start + 1, s.endRun) + JoinTexts(runs, s.start + 1, s.endRun + 1)
  {
  }

  /**
    Within one run the span text is what lies strictly between the brackets,
    whichever of the two comes first.
   */
  lemma SpanTextWithinRun(runs: seq<Run>, s: Span)
    requires ValidSpan(runs, s) && s.start == s.endRun
    ensures var text := runs[s.start].text;
      && (s.openPos < s.closePos ==> SpanText(runs, s) == text[s.openPos + 1..s.closePos])
      && (s.closePos < s.openPos ==> SpanText(runs, s) == text[s.closePos..s.openPos + 1])
  {
  }

  /**
    The runs `[a`, `b`, `c]d` hold one span whose text reads `abbc]d`: the middle
    run twice, the closing bracket and the text after it.
   */
  lemma SpanTextExample()
    ensures var runs := [Run("<w:t>", "[a", "</w:t>", 0), Run("<w:t>", "b", "</w:t>", 13), Run("<w:t>", "c]d", "</w:t>", 25)];
      && FindSpan(runs, 0) == Some(Span(0, 0, 2, 1))
      && SpanText(runs, Span(0, 0, 2, 1)) == "abbc]d"
  {
    var runs := [Run("<w:t>", "[a", "</w:t>", 0), Run("<w:t>", "b", "</w:t>", 13), Run("<w:t>", "c]d", "</w:t>", 25)];
    assert runs[0].text[..0] == "";
    assert runs[2].text[..1] == "c";
    assert FindCloseRun(runs, 1) == Some(2);
    SpanTextCrossing(runs, Span(0, 0, 2, 1));
    assert JoinTexts(runs, 1, 2) == "b";
    assert runs[0].text[1..] == "a";
  }

  // ---------------------------------------------------------------- blank spans

  predicate NotNbsp(c: char) { c != Nbsp }

  /** `isBlankUnderscore(s)`: once white space is removed, one or more underscores and nothing else. */
  predicate IsBlankUnderscore(s: string) {
    var t := RemoveSpaces(s);
    |t| > 0 && forall k :: 0 <= k < |t| ==> t[k] == '_'
  }

  /**
    Blank underscores, told character by character: at least one `_` and
    nothing else but white space.
   */
  lemma IsBlankUnderscoreMeans(s: string)
    ensures IsBlankUnderscore(s) <==> '_' in s && forall k :: 0 <= k < |s| ==> s[k] == '_' || IsSpace(s[k])
  {
    var t := RemoveSpaces(s);
    FilterMembers(s, NotSpace);
    if IsBlankUnderscore(s) {
      assert t[0] in t;
      forall k | 0 <= k < |s| && !IsSpace(s[k])
        ensures s[k] == '_'
      {
        assert s[k] in t;
      }
    }
    if '_' in s && forall k :: 0 <= k < |s| ==> s[k] == '_' || IsSpace(s[k]) {
      assert '_' in t;
      forall k | 0 <= k < |t|
        ensures t[k] == '_'
      {
        assert t[k] in t;
      }
    }
  }

  /**
    A blank span's inner text is empty, or, once no-break spaces are dropped,
    blank underscores.
   */
  predicate IsBlank(inner: string) {
    |inner| == 0 || IsBlankUnderscore(Filter(inner, NotNbsp))
  }

  lemma {:induction false} NbspRemovalIsRedundant(s: string)
    ensures RemoveSpaces(Filter(s, NotNbsp)) == RemoveSpaces(s)
  {
    if |s| > 0 {
      NbspRemovalIsRedundant(s[1..]);
      assert s == [s[0]] + s[1..];
      FilterConcat([s[0]], s[1..], NotNbsp);
      FilterConcat([s[0]], s[1..], NotSpace);
      var rest := Filter(s[1..], NotNbsp);
      if NotNbsp(s[0]) {
        FilterConcat([s[0]], rest, NotSpace);
      } else {
        assert s[0] == Nbsp && IsSpace(s[0]);
        assert [s[0]][1..] == [];
        assert Filter([s[0]], NotSpace) == "";
        assert Filter([s[0]], NotNbsp) == "";
        assert Filter(s, NotNbsp) == rest;
      }
    }
  }

  /**
    A span is blank exactly when its text, with every white-space character
    removed, is empty or consists of underscores only. The separate removal of
    non-breaking spaces changes nothing, as they count as white space.
   */
  lemma BlankIffUnderscores(spanText: string)
    ensures IsBlank(CollapseTrim(spanText)) <==> forall k :: 0 <= k < |RemoveSpaces(spanText)| ==> RemoveSpaces(spanText)[k] == '_'
  {
    CollapseTrimCleans(spanText);
    NbspRemovalIsRedundant(CollapseTrim(spanText));
  }

  // ---------------------------------------------------------------- context and key

  /** How far back from a run's start tag the context search looks. */
  const LookBack: nat := 400

  /**
    `xml.substring(Math.max(0, index - 400), index).toLowerCase()`: for an offset
    inside the document, the lower-cased text of at most 400 characters before it.
   */
  function Window(xml: string, index: nat): (w: string)
    ensures |w| <= LookBack
    ensures index <= |xml| ==> w == Lower(xml[(if index >= LookBack then index - LookBack else 0)..index])
  {
    Lower(Substring(xml, if index >= LookBack then index - LookBack else 0, index))
  }

  /**
    The context inference: the context of a span whose first run starts at `index`,
    from the window before it.
   */
  function InferContext(xml: string, index: nat): Option<Context> {
    var before := Window(xml, index);
    var context := if Contains(before, "investor") then Some(Investor) else None;
    if Contains(before, "company") && !Contains(before, "investor") then Some(Company) else context
  }

  /**
    The second test overrides the first only when the window does not mention
    "investor": the context is the investor whenever the window mentions
    "investor", the company when it mentions "company" but not "investor", and
    none otherwise.
   */
  lemma InferContextPrecedence(xml: string, index: nat)
    ensures var w := Window(xml, index);
      && (InferContext(xml, index) == Some(Investor) <==> Contains(w, "investor"))
      && (InferContext(xml, index) == Some(Company) <==> !Contains(w, "investor") && Contains(w, "company"))
      && (InferContext(xml, index).None? <==> !Contains(w, "investor") && !Contains(w, "company"))
  {
  }

  /** A generic word qualified by the context: `Investor Name`, `Company Name` or just `Name`. */
  function Qualify(context: Option<Context>, word: string): string {
    match context
    case Some(Investor) => "Investor " + word
    case Some(Company) => "Company " + word
    case None => word
  }

  /**
    The key resolution: `name` and `title`, in any letter case, become context
    qualified keys; any other inner text is the key unchanged.
   */
  function ResolveKey(inner: string, context: Option<Context>): string {
    var lower := Lower(inner);
    if lower == "name" then Qualify(context, "Name")
    else if lower == "title" then Qualify(context, "Title")
    else inner
  }

  /**
    Only `name` and `title`, in any letter case, are renamed, and only for them
    does the context matter: there each of the three contexts gives a different key.
   */
  lemma ResolveKeyRenamesOnlyNameAndTitle(inner: string, context: Option<Context>, other: Option<Context>)
    ensures ResolveKey(inner, context) != inner ==> Lower(inner) == "name" || Lower(inner) == "title"
    ensures ResolveKey(inner, context) != ResolveKey(inner, other) ==> Lower(inner) == "name" || Lower(inner) == "title"
    ensures Lower(inner) == "name" || Lower(inner) == "title" ==>
      (ResolveKey(inner, context) == ResolveKey(inner, other) <==> context == other)
  {
    if (Lower(inner) == "name" || Lower(inner) == "title") && context != other {
      var word := if Lower(inner) == "name" then "Name" else "Title";
      assert ResolveKey(inner, context) == Qualify(context, word);
      assert ResolveKey(inner, other) == Qualify(other, word);
      QualifyInjective(context, other, word);
    }
  }

  /** Different contexts qualify a word differently: the three prefixes have different lengths. */
  lemma QualifyInjective(context: Option<Context>, other: Option<Context>, word: string)
    requires context != other
    ensures Qualify(context, word) != Qualify(other, word)
  {
    assert |Qualify(context, word)| != |Qualify(other, word)|;
  }

  /**
    The six renamed keys: `name` and `title`, in any letter case, become
    `Investor …` in the investor context, `Company …` in the company context and
    plain `Name` or `Title` without one; every other inner text is its own key.
   */
  lemma ResolveKeyTable(inner: string, context: Option<Context>)
    ensures Lower(inner) == "name" && context == Some(Investor) ==> ResolveKey(inner, context) == "Investor Name"
    ensures Lower(inner) == "name" && context == Some(Company) ==> ResolveKey(inner, context) == "Company Name"
    ensures Lower(inner) == "name" && context == None ==> ResolveKey(inner, context) == "Name"
    ensures Lower(inner) == "title" && context == Some(Investor) ==> ResolveKey(inner, context) == "Investor Title"
    ensures Lower(inner) == "title" && context == Some(Company) ==> ResolveKey(inner, context) == "Company Title"
    ensures Lower(inner) == "title" && context == None ==> ResolveKey(inner, context) == "Title"
    ensures Lower(inner) != "name" && Lower(inner) != "title" ==> ResolveKey(inner, context) == inner
  {
  }

  /** The canonical tagged form that replaces a span. */
  function Tag(key: string): string {
    "{{" + key + "}}"
  }

  // ---------------------------------------------------------------- one cursor step

  /** The effect of one iteration: the cursor's next value, the new texts of runs `i..next`, and the entry pushed, if any. */
  datatype Advance = Advance(next: nat, texts: seq<string>, emitted: Option<Placeholder>)

  function Empties(n: nat): (e: seq<string>)
    ensures |e| == n && forall k :: 0 <= k < n ==> e[k] == ""
  {
    seq(n, _ => "")
  }

  /**
    The new texts of the `n + 1` runs of a blank span: the first
    run keeps its text before `[`, the closing run its text after `]`, and the
    runs between become empty. Within one run the text after `]` is written last
    and is all that remains.
   */
  function BlankTexts(n: nat, before: string, after: string): (t: seq<string>)
    ensures |t| == n + 1 && t[n] == after
    ensures n > 0 ==> t[0] == before
    ensures forall k :: 0 < k < n ==> t[k] == ""
  {
    if n == 0 then [after] else [before] + Empties(n - 1) + [after]
  }

  /** The new texts of the `n + 1` runs of a real span: `first` and then empty runs. */
  function TaggedTexts(n: nat, first: string): (t: seq<string>)
    ensures |t| == n + 1 && t[0] == first
    ensures forall k :: 0 < k <= n ==> t[k] == ""
  {
    [first] + Empties(n)
  }

  /**
    One iteration of the `while (i < matches.length)` loop at cursor `i`: the
    cursor moves forward, one new text is produced for every run it passes, and
    an entry, if any, is for the run at the cursor, which holds a `[`. What the
    texts and the entry are is stated by `StepWithoutSpan`, `StepBlankSpan` and
    `StepRealSpan`.
   */
  function Step(xml: string, runs: seq<Run>, i: nat): (a: Advance)
    requires i < |runs|
    ensures i < a.next <= |runs| && |a.texts| == a.next - i
    ensures a.emitted.Some? ==> a.emitted.value.position == runs[i].indexInXml && '[' in runs[i].text
  {
    match FindSpan(runs, i)
    case None => Advance(i + 1, [runs[i].text], None)
    case Some(s) =>
      if IsBlank(InnerAt(runs, i)) then BlankAdvance(runs, i, s) else RealAdvance(xml, runs, i, s)
  }

  /** The step over a blank span `s` at the cursor. */
  function BlankAdvance(runs: seq<Run>, i: nat, s: Span): Advance
    requires i < |runs| && FindSpan(runs, i) == Some(s)
  {
    Advance(s.endRun + 1, BlankTexts(s.endRun - i, runs[i].text[..s.openPos], runs[s.endRun].text[s.closePos + 1..]), None)
  }

  /** The step over a real span `s` at the cursor. */
  function RealAdvance(xml: string, runs: seq<Run>, i: nat, s: Span): Advance
    requires i < |runs| && FindSpan(runs, i) == Some(s) && !IsBlank(InnerAt(runs, i))
  {
    var entry := SpanEntry(xml, runs, i);
    Advance(s.endRun + 1, TaggedTexts(s.endRun - i, runs[i].text[..s.openPos] + Tag(entry.key) + runs[s.endRun].text[s.closePos + 1..]), Some(entry))
  }

  /**
    The entry recorded for a real span at the cursor, as pushed onto
    `placeholdersFound`: the cleaned text in brackets, the key it resolves to in the
    context before the run, the run's offset and that context.
   */
  function SpanEntry(xml: string, runs: seq<Run>, i: nat): Placeholder
    requires i < |runs| && FindSpan(runs, i).Some? && !IsBlank(InnerAt(runs, i))
  {
    var inner := InnerAt(runs, i);
    var context := InferContext(xml, runs[i].indexInXml);
    Placeholder("[" + inner + "]", ResolveKey(inner, context), runs[i].indexInXml, context)
  }

  /** With no span at the cursor the run keeps its text, nothing is found and the cursor moves on by one. */
  lemma StepWithoutSpan(xml: string, runs: seq<Run>, i: nat)
    requires i < |runs| && FindSpan(runs, i).None?
    ensures Step(xml, runs, i) == Advance(i + 1, [runs[i].text], None)
  {
  }

  /** The cleaned inner text of the span found at the cursor. */
  function InnerAt(runs: seq<Run>, i: nat): string
    requires i < |runs| && FindSpan(runs, i).Some?
  {
    CollapseTrim(SpanText(runs, FindSpan(runs, i).value))
  }

  /** Text holding a `]` never cleans to a blank: the bracket survives the cleaning. */
  lemma ClosingBracketNeverBlank(t: string)
    requires ']' in t
    ensures !IsBlank(CollapseTrim(t))
  {
    BlankIffUnderscores(t);
    FilterMembers(t, NotSpace);
    var r := RemoveSpaces(t);
    var k :| 0 <= k < |r| && r[k] == ']';
  }

  /**
    A span that crosses runs is never blank: its text ends with the whole
    closing run, whose `]` is still there after cleaning.
   */
  lemma MultiRunNeverBlank(runs: seq<Run>, s: Span)
    requires ValidSpan(runs, s) && s.start < s.endRun
    ensures !IsBlank(CollapseTrim(SpanText(runs, s)))
  {
    var middle := JoinTexts(runs, s.start + 1, s.endRun);
    var front := runs[s.start].text[s.openPos + 1..] + middle + middle;
    var last := runs[s.endRun].text;
    SpanTextCrossing(runs, s);
    assert SpanText(runs, s) == front + last;
    assert (front + last)[|front| + s.closePos] == ']';
    ClosingBracketNeverBlank(SpanText(runs, s));
  }

  /**
    A span whose `]` comes before its `[` in the same run is never blank: the
    swapped `substring` keeps the `]`.
   */
  lemma SwappedSpanNeverBlank(runs: seq<Run>, s: Span)
    requires ValidSpan(runs, s) && s.start == s.endRun && s.closePos < s.openPos
    ensures !IsBlank(CollapseTrim(SpanText(runs, s)))
  {
    SpanTextWithinRun(runs, s);
    assert SpanText(runs, s)[0] == ']';
    ClosingBracketNeverBlank(SpanText(runs, s));
  }

  /**
    So every blank span lies inside one run with its `[` before its `]`; the
    writes for a blank span that crosses runs are never reached.
   */
  lemma BlankSpanInOneRun(runs: seq<Run>, i: nat)
    requires i < |runs| && FindSpan(runs, i).Some? && IsBlank(InnerAt(runs, i))
    ensures var s := FindSpan(runs, i).value;
      s.endRun == s.start && s.openPos < s.closePos
  {
    var s := FindSpan(runs, i).value;
    if s.start < s.endRun {
      MultiRunNeverBlank(runs, s);
    } else if s.closePos < s.openPos {
      SwappedSpanNeverBlank(runs, s);
    }
  }

  /**
    Underscores split across the runs `[___` and `___]` are not a blank: the
    span text is `______]` and it is recorded as a placeholder.
   */
  lemma SplitUnderscoresExample()
    ensures var runs := SplitUnderscoreRuns();
      && FindSpan(runs, 0) == Some(Span(0, 0, 1, 3))
      && SpanText(runs, Span(0, 0, 1, 3)) == "______]"
      && !IsBlank(InnerAt(runs, 0))
  {
    var runs := SplitUnderscoreRuns();
    SplitUnderscoresSpan();
    MultiRunNeverBlank(runs, Span(0, 0, 1, 3));
    assert InnerAt(runs, 0) == CollapseTrim(SpanText(runs, Span(0, 0, 1, 3)));
  }

  function SplitUnderscoreRuns(): seq<Run> {
    [Run("<w:t>", "[___", "</w:t>", 0), Run("<w:t>", "___]", "</w:t>", 15)]
  }

  lemma SplitUnderscoresSpan()
    ensures FindSpan(SplitUnderscoreRuns(), 0) == Some(Span(0, 0, 1, 3))
    ensures SpanText(SplitUnderscoreRuns(), Span(0, 0, 1, 3)) == "______]"
  {
    var runs := SplitUnderscoreRuns();
    assert runs[0].text[..0] == "";
    assert runs[1].text[..3] == "___";
    assert FindCloseRun(runs, 1) == Some(1);
    SpanTextCrossing(runs, Span(0, 0, 1, 3));
    assert JoinTexts(runs, 1, 1) == "";
    assert runs[0].text[1..] == "___";
  }

  /**
    A blank span emits nothing and moves the cursor past its closing run. Within
    one run the text after `]` replaces the whole run: the text before `[`,
    written first, is overwritten. The contract also covers the writes for a
    span that crosses runs (first run keeps its text before `[`, closing run its
    text after `]`, runs between emptied), but `BlankSpanInOneRun` shows that
    case never arises.
   */
  lemma StepBlankSpan(xml: string, runs: seq<Run>, i: nat)
    requires i < |runs| && FindSpan(runs, i).Some? && IsBlank(InnerAt(runs, i))
    ensures var s := FindSpan(runs, i).value;
      Step(xml, runs, i) == Advance(s.endRun + 1, BlankTexts(s.endRun - i, runs[i].text[..s.openPos], runs[s.endRun].text[s.closePos + 1..]), None)
  {
    var s := FindSpan(runs, i).value;
    assert FindSpan(runs, i) == Some(s);
    assert Step(xml, runs, i) == BlankAdvance(runs, i, s);
  }

  /**
    A real span emits one entry, for the offset of the run at the cursor, whose
    `raw` is the cleaned inner text in brackets and whose key is that text
    resolved in the context before the run. The first run becomes its text
    before `[`, then `{{key}}`, then the closing run's text after `]`; every
    other run of the span becomes empty and the cursor moves past the span.
   */
  lemma StepRealSpan(xml: string, runs: seq<Run>, i: nat)
    requires i < |runs| && FindSpan(runs, i).Some? && !IsBlank(InnerAt(runs, i))
    ensures var s := FindSpan(runs, i).value;
      var inner := InnerAt(runs, i);
      var context := InferContext(xml, runs[i].indexInXml);
      var key := ResolveKey(inner, context);
      var first := runs[i].text[..s.openPos] + Tag(key) + runs[s.endRun].text[s.closePos + 1..];
      Step(xml, runs, i) == Advance(s.endRun + 1, TaggedTexts(s.endRun - i, first), Some(Placeholder("[" + inner + "]", key, runs[i].indexInXml, context)))
  {
    var s := FindSpan(runs, i).value;
    assert FindSpan(runs, i) == Some(s);
    assert Step(xml, runs, i) == RealAdvance(xml, runs, i, s);
  }

  // ---------------------------------------------------------------- the whole pass

  /** `newTexts` and `placeholdersFound` once the loop has run. */
  datatype Outcome = Outcome(texts: seq<string>, found: seq<Placeholder>)

  /**
    An entry as the pass over `xml` emits it: `raw` is the cleaned inner text in
    brackets, that text is not blank, the context is the one the window before
    the entry's position gives, and `key` is what the inner text resolves to in
    that context.
   */
  predicate Consistent(xml: string, p: Placeholder) {
    && |p.raw| >= 2 && p.raw[0] == '[' && p.raw[|p.raw| - 1] == ']'
    && !IsBlank(p.raw[1..|p.raw| - 1])
    && p.context == InferContext(xml, p.position)
    && p.key == ResolveKey(p.raw[1..|p.raw| - 1], p.context)
  }

  /**
    The loop from cursor `i` to the end: one new text per remaining run, at most
    one entry per remaining run, and every entry consistent.
   */
  function Pass(xml: string, runs: seq<Run>, i: nat): (r: Outcome)
    requires i <= |runs|
    ensures |r.texts| == |runs| - i
    ensures |r.found| <= |runs| - i
    decreases |runs| - i
  {
    if i == |runs| then Outcome([], [])
    else
      var a := Step(xml, runs, i);
      var rest := Pass(xml, runs, a.next);
      var emitted := if a.emitted.Some? then [a.emitted.value] else [];
      Outcome(a.texts + rest.texts, emitted + rest.found)
  }

  /** The normalisation of all runs of a document. */
  function Normalize(xml: string, runs: seq<Run>): (r: Outcome)
    ensures |r.texts| == |runs| && |r.found| <= |runs|
  {
    Pass(xml, runs, 0)
  }

  // ---------------------------------------------------------------- properties of the pass

  /**
    When no `[` has a `]` in its own run or a later one, every step moves the
    cursor by one: the texts stay as they were and nothing is found.
   */
  lemma {:induction false} UnmatchedBracketsChangeNothing(xml: string, runs: seq<Run>, i: nat)
    requires i <= |runs|
    requires forall k :: i <= k < |runs| && '[' in runs[k].text ==> forall m :: k <= m < |runs| ==> ']' !in runs[m].text
    ensures Pass(xml, runs, i) == Outcome(Texts(runs)[i..], [])
    decreases |runs| - i
  {
    if i < |runs| {
      assert FindSpan(runs, i).None?;
      UnmatchedBracketsChangeNothing(xml, runs, i + 1);
      assert Texts(runs)[i..] == [runs[i].text] + Texts(runs)[i + 1..];
    }
  }

  /**
    A document in which no run holds a `[`, or no run holds a `]`, keeps every
    run's text, literal brackets included, and yields no placeholder.
   */
  lemma NoSpanChangesNothing(xml: string, runs: seq<Run>)
    requires (forall k :: 0 <= k < |runs| ==> '[' !in runs[k].text) || (forall k :: 0 <= k < |runs| ==> ']' !in runs[k].text)
    ensures Normalize(xml, runs) == Outcome(Texts(runs), [])
  {
    UnmatchedBracketsChangeNothing(xml, runs, 0);
    assert Texts(runs)[0..] == Texts(runs);
  }

  /** One unfolding of `Pass` at a cursor inside the runs. */
  lemma PassUnfold(xml: string, runs: seq<Run>, i: nat)
    requires i < |runs|
    ensures var a := Step(xml, runs, i);
      var rest := Pass(xml, runs, a.next);
      && Pass(xml, runs, i).texts == a.texts + rest.texts
      && Pass(xml, runs, i).found == Emitted(a) + rest.found
  {
  }

  /** Positions strictly increase along `found`. */
  ghost predicate Ascending(found: seq<Placeholder>) {
    forall a, b :: 0 <= a < b < |found| ==> found[a].position < found[b].position
  }

  /** Every entry of `found` is at the offset of a run from `i` on that holds a `[`. */
  ghost predicate AtOpeningRuns(runs: seq<Run>, i: nat, found: seq<Placeholder>) {
    forall p :: p in found ==> exists k :: i <= k < |runs| && p.position == runs[k].indexInXml && '[' in runs[k].text
  }

  lemma AscendingCons(p0: Placeholder, rest: seq<Placeholder>)
    requires Ascending(rest)
    requires forall p :: p in rest ==> p0.position < p.position
    ensures Ascending([p0] + rest)
  {
    var found := [p0] + rest;
    forall x, y | 0 <= x < y < |found|
      ensures found[x].position < found[y].position
    {
      assert found[y] == rest[y - 1];
      if x > 0 {
        assert found[x] == rest[x - 1];
      }
    }
  }

  lemma AtOpeningRunsCons(runs: seq<Run>, i: nat, next: nat, p0: Placeholder, rest: seq<Placeholder>)
    requires i < next && i < |runs| && p0.position == runs[i].indexInXml && '[' in runs[i].text
    requires AtOpeningRuns(runs, next, rest)
    requires forall a, b :: 0 <= a < b < |runs| ==> runs[a].indexInXml < runs[b].indexInXml
    ensures AtOpeningRuns(runs, i, [p0] + rest)
    ensures forall p :: p in rest ==> p0.position < p.position
  {
    forall p | p in rest
      ensures p0.position < p.position
    {
      var k :| next <= k < |runs| && p.position == runs[k].indexInXml && '[' in runs[k].text;
    }
  }

  /**
    With runs in increasing document order, the entries come out in strictly
    increasing `position`, each the offset of a run from the cursor on that holds
    a `[`.
   */
  lemma {:induction false} PassPositionsAscend(xml: string, runs: seq<Run>, i: nat)
    requires i <= |runs|
    requires forall a, b :: 0 <= a < b < |runs| ==> runs[a].indexInXml < runs[b].indexInXml
    ensures Ascending(Pass(xml, runs, i).found)
    ensures AtOpeningRuns(runs, i, Pass(xml, runs, i).found)
    decreases |runs| - i
  {
    if i < |runs| {
      var a := Step(xml, runs, i);
      PassUnfold(xml, runs, i);
      PassPositionsAscend(xml, runs, a.next);
      var rest := Pass(xml, runs, a.next).found;
      if a.emitted.Some? {
        AtOpeningRunsCons(runs, i, a.next, a.emitted.value, rest);
        AscendingCons(a.emitted.value, rest);
      } else {
        assert Pass(xml, runs, i).found == rest;
      }
    }
  }

  /** An entry a step emits is consistent. */
  lemma StepConsistent(xml: string, runs: seq<Run>, i: nat)
    requires i < |runs| && Step(xml, runs, i).emitted.Some?
    ensures Consistent(xml, Step(xml, runs, i).emitted.value)
  {
    if FindSpan(runs, i).None? {
      StepWithoutSpan(xml, runs, i);
    } else if IsBlank(InnerAt(runs, i)) {
      StepBlankSpan(xml, runs, i);
    } else {
      StepRealSpan(xml, runs, i);
      var inner := InnerAt(runs, i);
      var raw := "[" + inner + "]";
      assert raw[1..|raw| - 1] == inner;
    }
  }

  /**
    Every entry the pass finds is consistent: its `raw` is a non-blank cleaned
    text in brackets, its context is inferred from the window before its
    position, and its key is what that text resolves to in that context.
   */
  lemma {:induction false} PassEntriesConsistent(xml: string, runs: seq<Run>, i: nat)
    requires i <= |runs|
    ensures forall p :: p in Pass(xml, runs, i).found ==> Consistent(xml, p)
    decreases |runs| - i
  {
    if i < |runs| {
      var a := Step(xml, runs, i);
      PassUnfold(xml, runs, i);
      PassEntriesConsistent(xml, runs, a.next);
      if a.emitted.Some? {
        StepConsistent(xml, runs, i);
      }
    }
  }

  // ---------------------------------------------------------------- the loop itself

  /** Writing `seg` over `base[i..next]` in place, element by element, leaves `base[..i] + seg + base[next..]`. */
  lemma Splice<T>(result: seq<T>, base: seq<T>, i: nat, next: nat, seg: seq<T>)
    requires i <= next <= |base| == |result| && |seg| == next - i
    requires forall m :: 0 <= m < i ==> result[m] == base[m]
    requires forall m :: i <= m < next ==> result[m] == seg[m - i]
    requires forall m :: next <= m < |base| ==> result[m] == base[m]
    ensures result == base[..i] + seg + base[next..]
  {
  }

  /** A segment whose first, last and middle elements agree with `seg`'s agrees with it everywhere. */
  lemma SameSegment(result: seq<string>, i: nat, e: nat, seg: seq<string>)
    requires i < e < |result| && |seg| == e - i + 1
    requires result[i] == seg[0] && result[e] == seg[|seg| - 1]
    requires forall m :: i < m < e ==> result[m] == ""
    requires forall k :: 0 < k < |seg| - 1 ==> seg[k] == ""
    ensures forall m :: i <= m <= e ==> result[m] == seg[m - i]
  {
    forall m | i < m < e
      ensures result[m] == seg[m - i]
    {
      assert 0 < m - i < |seg| - 1;
    }
  }

  /** A segment that agrees with `seg` on its first element and is empty after it agrees with it everywhere. */
  lemma HeadSegment(result: seq<string>, i: nat, e: nat, seg: seq<string>)
    requires i <= e < |result| && |seg| == e - i + 1
    requires result[i] == seg[0]
    requires forall m :: i < m <= e ==> result[m] == ""
    requires forall k :: 0 < k < |seg| ==> seg[k] == ""
    ensures forall m :: i <= m <= e ==> result[m] == seg[m - i]
  {
    forall m | i < m <= e
      ensures result[m] == seg[m - i]
    {
      assert 0 < m - i < |seg|;
    }
  }

  /** The inner `for` loops that empty the texts of runs `lo..hi`. */
  method ClearRuns(texts: seq<string>, lo: nat, hi: nat) returns (r: seq<string>)
    requires lo <= hi <= |texts|
    ensures |r| == |texts|
    ensures forall m :: lo <= m < hi ==> r[m] == ""
    ensures forall m :: 0 <= m < |texts| && !(lo <= m < hi) ==> r[m] == texts[m]
  {
    r := texts;
    var k := lo;
    while k < hi
      invariant lo <= k <= hi && |r| == |texts|
      invariant forall m :: lo <= m < k ==> r[m] == ""
      invariant forall m :: 0 <= m < |texts| && !(lo <= m < k) ==> r[m] == texts[m]
    {
      r := r[k := ""];
      k := k + 1;
    }
  }

  /** The blank-span writes on the mutable `newTexts`: the blank span's runs `i..e` get `BlankTexts`, every other run keeps its text. */
  method ClearBlankSpan(texts: seq<string>, i: nat, e: nat, before: string, after: string) returns (newTexts: seq<string>)
    requires i <= e < |texts|
    ensures newTexts == texts[..i] + BlankTexts(e - i, before, after) + texts[e + 1..]
  {
    if e == i {
      newTexts := texts[i := before][e := after];
    } else {
      newTexts := ClearRuns(texts[i := before][e := after], i + 1, e);
      SameSegment(newTexts, i, e, BlankTexts(e - i, before, after));
    }
    Splice(newTexts, texts, i, e + 1, BlankTexts(e - i, before, after));
  }

  /** The real-span writes on the mutable `newTexts`: run `i` gets `first`, runs `i + 1..e` become empty, every other run keeps its text. */
  method TagSpan(texts: seq<string>, i: nat, e: nat, first: string) returns (newTexts: seq<string>)
    requires i <= e < |texts|
    ensures newTexts == texts[..i] + TaggedTexts(e - i, first) + texts[e + 1..]
  {
    newTexts := ClearRuns(texts[i := first], i + 1, e + 1);
    HeadSegment(newTexts, i, e, TaggedTexts(e - i, first));
    Splice(newTexts, texts, i, e + 1, TaggedTexts(e - i, first));
  }

  /** No span at the cursor, so nothing is written and the cursor moves on by one. */
  method SkipRun(xml: string, runs: seq<Run>, i: nat, texts: seq<string>) returns (newTexts: seq<string>, next: nat)
    requires i < |runs| && |texts| == |runs| && texts[i] == runs[i].text && FindSpan(runs, i).None?
    ensures Step(xml, runs, i) == Advance(next, [runs[i].text], None)
    ensures newTexts == texts[..i] + [runs[i].text] + texts[next..]
  {
    StepWithoutSpan(xml, runs, i);
    newTexts, next := texts, i + 1;
    Splice(newTexts, texts, i, next, [runs[i].text]);
  }

  /** A blank span at the cursor loses its brackets and the runs it crosses are cleared. */
  method ApplyBlankSpan(runs: seq<Run>, i: nat, texts: seq<string>) returns (newTexts: seq<string>, next: nat)
    requires i < |runs| && |texts| == |runs| && FindSpan(runs, i).Some?
    ensures var s := FindSpan(runs, i).value;
      && next == s.endRun + 1
      && newTexts == texts[..i] + BlankTexts(s.endRun - i, runs[i].text[..s.openPos], runs[s.endRun].text[s.closePos + 1..]) + texts[s.endRun + 1..]
  {
    var s := FindSpan(runs, i).value;
    newTexts := ClearBlankSpan(texts, i, s.endRun, runs[i].text[..s.openPos], runs[s.endRun].text[s.closePos + 1..]);
    next := s.endRun + 1;
  }

  /** What `ClearBlankSpan` writes is what the step over a blank span prescribes. */
  lemma BlankSpanApplied(xml: string, runs: seq<Run>, i: nat, texts: seq<string>, newTexts: seq<string>)
    requires i < |runs| && |texts| == |runs| && FindSpan(runs, i).Some? && IsBlank(InnerAt(runs, i))
    requires var s := FindSpan(runs, i).value;
      newTexts == texts[..i] + BlankTexts(s.endRun - i, runs[i].text[..s.openPos], runs[s.endRun].text[s.closePos + 1..]) + texts[s.endRun + 1..]
    ensures Step(xml, runs, i) == Advance(FindSpan(runs, i).value.endRun + 1, Step(xml, runs, i).texts, None)
    ensures newTexts == texts[..i] + Step(xml, runs, i).texts + texts[FindSpan(runs, i).value.endRun + 1..]
  {
    StepBlankSpan(xml, runs, i);
  }

  /** A real span at the cursor is rewritten to its tag and its entry is recorded. */
  method ApplyRealSpan(xml: string, runs: seq<Run>, i: nat, texts: seq<string>) returns (newTexts: seq<string>, next: nat, entry: Placeholder)
    requires i < |runs| && |texts| == |runs| && FindSpan(runs, i).Some?
    ensures var s := FindSpan(runs, i).value;
      var context := InferContext(xml, runs[i].indexInXml);
      var key := ResolveKey(InnerAt(runs, i), context);
      && next == s.endRun + 1
      && entry == Placeholder("[" + InnerAt(runs, i) + "]", key, runs[i].indexInXml, context)
      && newTexts == texts[..i] + TaggedTexts(s.endRun - i, runs[i].text[..s.openPos] + Tag(key) + runs[s.endRun].text[s.closePos + 1..]) + texts[s.endRun + 1..]
  {
    var s := FindSpan(runs, i).value;
    var inner := InnerAt(runs, i);
    var context := InferContext(xml, runs[i].indexInXml);
    var key := ResolveKey(inner, context);
    newTexts := TagSpan(texts, i, s.endRun, runs[i].text[..s.openPos] + Tag(key) + runs[s.endRun].text[s.closePos + 1..]);
    next, entry := s.endRun + 1, Placeholder("[" + inner + "]", key, runs[i].indexInXml, context);
  }

  /** What `TagSpan` writes and the entry built for it are what the step over a real span prescribes. */
  lemma RealSpanApplied(xml: string, runs: seq<Run>, i: nat, texts: seq<string>, newTexts: seq<string>, entry: Placeholder)
    requires i < |runs| && |texts| == |runs| && FindSpan(runs, i).Some? && !IsBlank(InnerAt(runs, i))
    requires var s := FindSpan(runs, i).value;
      var context := InferContext(xml, runs[i].indexInXml);
      var key := ResolveKey(InnerAt(runs, i), context);
      && entry == Placeholder("[" + InnerAt(runs, i) + "]", key, runs[i].indexInXml, context)
      && newTexts == texts[..i] + TaggedTexts(s.endRun - i, runs[i].text[..s.openPos] + Tag(key) + runs[s.endRun].text[s.closePos + 1..]) + texts[s.endRun + 1..]
    ensures Step(xml, runs, i) == Advance(FindSpan(runs, i).value.endRun + 1, Step(xml, runs, i).texts, Some(entry))
    ensures newTexts == texts[..i] + Step(xml, runs, i).texts + texts[FindSpan(runs, i).value.endRun + 1..]
  {
    StepRealSpan(xml, runs, i);
  }

  /**
    One iteration of the loop on the mutable `newTexts`: the runs the step passes
    get the step's texts, every other run keeps its current text.
   */
  method ApplyStep(xml: string, runs: seq<Run>, i: nat, texts: seq<string>)
    returns (newTexts: seq<string>, next: nat, emitted: Option<Placeholder>)
    requires i < |runs| && |texts| == |runs| && texts[i] == runs[i].text
    ensures next == Step(xml, runs, i).next && emitted == Step(xml, runs, i).emitted
    ensures newTexts == texts[..i] + Step(xml, runs, i).texts + texts[next..]
  {
    if FindSpan(runs, i).None? {
      newTexts, next := SkipRun(xml, runs, i, texts);
      emitted := None;
    } else if IsBlank(InnerAt(runs, i)) {
      newTexts, next := ApplyBlankSpan(runs, i, texts);
      emitted := None;
      BlankSpanApplied(xml, runs, i, texts, newTexts);
    } else {
      var entry;
      newTexts, next, entry := ApplyRealSpan(xml, runs, i, texts);
      emitted := Some(entry);
      RealSpanApplied(xml, runs, i, texts, newTexts, entry);
    }
  }

  /** Concatenation regrouped: what a step fixes joins the prefix before the rest of the pass. */
  lemma Regroup<T>(prefix: seq<T>, step: seq<T>, rest: seq<T>, tail: seq<T>, whole: seq<T>)
    requires prefix + (step + rest) == whole
    ensures (prefix + step + tail)[..|prefix| + |step|] + rest == whole
  {
    assert (prefix + step + tail)[..|prefix| + |step|] == prefix + step;
  }

  /** The entries a step adds to `placeholdersFound`. */
  function Emitted(a: Advance): seq<Placeholder> {
    if a.emitted.Some? then [a.emitted.value] else []
  }

  /** What is fixed so far stays fixed when a step's share is moved from the rest of the pass to it. */
  lemma FixedTexts(texts: seq<string>, i: nat, next: nat, step: seq<string>, rest: seq<string>, whole: seq<string>, updated: seq<string>)
    requires i <= next <= |texts| && |step| == next - i
    requires texts[..i] + (step + rest) == whole
    requires updated == texts[..i] + step + texts[next..]
    ensures updated[..next] + rest == whole
  {
    Regroup(texts[..i], step, rest, texts[next..], whole);
  }

  lemma FixedFound(found: seq<Placeholder>, step: seq<Placeholder>, rest: seq<Placeholder>, whole: seq<Placeholder>)
    requires found + (step + rest) == whole
    ensures found + step + rest == whole
  {
  }

  /** One iteration keeps the loop's invariants: what is fixed so far, followed by the rest of the pass, is the whole pass. */
  lemma LoopStep(xml: string, runs: seq<Run>, whole: Outcome, i: nat, texts: seq<string>, found: seq<Placeholder>,
                 updated: seq<string>, next: nat, found2: seq<Placeholder>)
    requires i < |runs| && |texts| == |runs|
    requires texts[..i] + Pass(xml, runs, i).texts == whole.texts
    requires found + Pass(xml, runs, i).found == whole.found
    requires next == Step(xml, runs, i).next
    requires updated == texts[..i] + Step(xml, runs, i).texts + texts[next..]
    requires found2 == found + Emitted(Step(xml, runs, i))
    requires forall m :: i <= m < |runs| ==> texts[m] == runs[m].text
    ensures i < next <= |runs| && |updated| == |runs|
    ensures forall m :: next <= m < |runs| ==> updated[m] == runs[m].text
    ensures updated[..next] + Pass(xml, runs, next).texts == whole.texts
    ensures found2 + Pass(xml, runs, next).found == whole.found
  {
    var a := Step(xml, runs, i);
    PassUnfold(xml, runs, i);
    var rest := Pass(xml, runs, a.next);
    FixedTexts(texts, i, next, a.texts, rest.texts, whole.texts, updated);
    FixedFound(found, Emitted(a), rest.found, whole.found);
    Untouched(texts, i, next, a.texts, updated);
  }

  /** The runs after the step's share keep the texts they had. */
  lemma Untouched(texts: seq<string>, i: nat, next: nat, step: seq<string>, updated: seq<string>)
    requires i <= next <= |texts| && |step| == next - i
    requires updated == texts[..i] + step + texts[next..]
    ensures |updated| == |texts| && forall m :: next <= m < |texts| ==> updated[m] == texts[m]
  {
  }

  /**
    The state of the loop at cursor `i`: the texts before `i`, followed by what the
    rest of the pass produces, are the pass's texts; the entries found so far,
    followed by the rest, are its entries; and the runs from `i` on still hold
    their original texts.
   */
  ghost predicate Agrees(xml: string, runs: seq<Run>, whole: Outcome, i: nat, newTexts: seq<string>, found: seq<Placeholder>)
    requires i <= |runs|
  {
    && |newTexts| == |runs|
    && newTexts[..i] + Pass(xml, runs, i).texts == whole.texts
    && found + Pass(xml, runs, i).found == whole.found
    && (forall m :: i <= m < |runs| ==> newTexts[m] == runs[m].text)
  }

  /** One turn of the loop: the cursor moves on and what is fixed so far still agrees with the pass. */
  method LoopBody(xml: string, runs: seq<Run>, ghost whole: Outcome, i: nat, newTexts: seq<string>, found: seq<Placeholder>)
    returns (newTexts': seq<string>, found': seq<Placeholder>, next: nat)
    requires i < |runs| && Agrees(xml, runs, whole, i, newTexts, found)
    ensures i < next <= |runs| && Agrees(xml, runs, whole, next, newTexts', found')
  {
    var emitted;
    newTexts', next, emitted := ApplyStep(xml, runs, i, newTexts);
    found' := found;
    if emitted.Some? {
      found' := found' + [emitted.value];
    }
    LoopStep(xml, runs, whole, i, newTexts, found, newTexts', next, found');
  }

  /**
    The `while (i < matches.length)` loop written as the code writes it: a
    mutable `newTexts` that starts as the original texts and is overwritten run
    by run, and `placeholdersFound` that grows at the end. It computes the same
    texts and entries as `Normalize`.
   */
  method NormalizeRuns(xml: string, runs: seq<Run>) returns (newTexts: seq<string>, found: seq<Placeholder>)
    ensures Outcome(newTexts, found) == Normalize(xml, runs)
    ensures |newTexts| == |runs| && |found| <= |runs|
  {
    newTexts := Texts(runs);
    found := [];
    ghost var whole := Normalize(xml, runs);
    AgreesAtStart(xml, runs);
    var i := 0;
    while i < |runs|
      invariant i <= |runs| && Agrees(xml, runs, whole, i, newTexts, found)
      decreases |runs| - i
    {
      newTexts, found, i := LoopBody(xml, runs, whole, i, newTexts, found);
    }
    AgreesAtEnd(xml, runs, whole, newTexts, found);
  }

  /** Before the loop the texts are the runs' own and nothing is found. */
  lemma AgreesAtStart(xml: string, runs: seq<Run>)
    ensures Agrees(xml, runs, Normalize(xml, runs), 0, Texts(runs), [])
  {
    assert Texts(runs)[..0] == [];
  }

  /** Once the cursor has passed every run, the texts and entries are the pass's. */
  lemma AgreesAtEnd(xml: string, runs: seq<Run>, whole: Outcome, newTexts: seq<string>, found: seq<Placeholder>)
    requires Agrees(xml, runs, whole, |runs|, newTexts, found)
    ensures Outcome(newTexts, found) == whole
  {
    assert newTexts[..|runs|] == newTexts;
  }
}

=== FILE: options.dfy ===
/** The optional value used wherever the JavaScript code returns -1, null or undefined. */
module Options {

  datatype Option<+T> = None | Some(value: T)
}

=== FILE: rebuild.dfy ===
/**
  The rebuilding of `word/document.xml` in app/api/upload/route.ts: every run's
  match is replaced by its opening tag, its new text passed through `escapeXml`,
  and its closing tag, working from the last run back to the first so that the
  offsets of the runs still to be replaced stay valid.
 */
module Rebuild {
  import opened XmlEscape
  import opened RunScanner

  /** The replacement for one run: `${openTag}${escapeXml(text)}${closeTag}`. */
  function NewFull(run: Run, text: string): string {
    run.openTag + EscapeXml(text) + run.closeTag
  }

  /** The replacements of all runs, in order. */
  function NewFulls(runs: seq<Run>, texts: seq<string>): (fulls: seq<string>)
    requires |texts| == |runs|
    ensures |fulls| == |runs| && forall k :: 0 <= k < |runs| ==> fulls[k] == NewFull(runs[k], texts[k])
  {
    seq(|runs|, k requires 0 <= k < |runs| => NewFull(runs[k], texts[k]))
  }

  /** Where the document text before run `k` may start being copied: the end of run `k - 1`. */
  function Boundary(runs: seq<Run>, k: nat): nat
    requires k <= |runs|
  {
    if k == 0 then 0 else runs[k - 1].End()
  }

  /**
    The left-to-right reading of the rebuilt document from offset `pos` on: the
    text between runs is copied, and each run `k` onwards is replaced by
    `fulls[k]`.
   */
  function SpliceFrom(xml: string, runs: seq<Run>, fulls: seq<string>, k: nat, pos: nat): string
    requires Placed(xml, runs) && |fulls| == |runs| && k <= |runs| && pos <= |xml|
    requires k < |runs| ==> pos <= runs[k].indexInXml
    decreases |runs| - k
  {
    if k == |runs| then xml[pos..]
    else xml[pos..runs[k].indexInXml] + fulls[k] + SpliceFrom(xml, runs, fulls, k + 1, runs[k].End())
  }

  /** The rebuilt document: every run replaced by its new full match, the rest copied. */
  function Assemble(xml: string, runs: seq<Run>, texts: seq<string>): string
    requires Placed(xml, runs) && |texts| == |runs|
  {
    SpliceFrom(xml, runs, NewFulls(runs, texts), 0, 0)
  }

  lemma SlicesOfConcat(left: string, right: string, idx: nat)
    requires idx <= |left|
    ensures (left + right)[..idx] == left[..idx]
    ensures (left + right)[|left|..] == right
  {
  }

  /** `s.slice(0, at) + piece + s.slice(at + len)`. */
  function Replace(s: string, at: nat, len: nat, piece: string): string
    requires at + len <= |s|
  {
    s[..at] + piece + s[at + len..]
  }

  lemma BoundaryBelowEnd(xml: string, runs: seq<Run>, k: nat)
    requires Placed(xml, runs) && k <= |runs|
    ensures Boundary(runs, k) <= |xml|
    ensures k < |runs| ==> Boundary(runs, k) <= runs[k].indexInXml
  {
  }

  /** The text up to run `k`'s lower boundary followed by the splice from there. */
  function SplicedTail(xml: string, runs: seq<Run>, fulls: seq<string>, k: nat): string
    requires Placed(xml, runs) && |fulls| == |runs| && k <= |runs|
  {
    BoundaryBelowEnd(xml, runs, k);
    xml[..Boundary(runs, k)] + SpliceFrom(xml, runs, fulls, k, Boundary(runs, k))
  }

  /** One replacement by slicing, taken at run `k - 1` once the runs after it are done. */
  lemma SpliceStep(xml: string, runs: seq<Run>, fulls: seq<string>, k: nat)
    requires Placed(xml, runs) && |fulls| == |runs| && 0 < k <= |runs|
    ensures var run := runs[k - 1];
      && run.indexInXml + |run.FullMatch()| <= |SplicedTail(xml, runs, fulls, k)|
      && Replace(SplicedTail(xml, runs, fulls, k), run.indexInXml, |run.FullMatch()|, fulls[k - 1])
         == SplicedTail(xml, runs, fulls, k - 1)
  {
    var run := runs[k - 1];
    var idx := run.indexInXml;
    var b := Boundary(runs, k);
    BoundaryBelowEnd(xml, runs, k);
    var left := xml[..b];
    var rest := SpliceFrom(xml, runs, fulls, k, b);
    BoundaryBelowEnd(xml, runs, k - 1);
    var b0 := Boundary(runs, k - 1);
    assert b == idx + |run.FullMatch()| && |left| == b;
    SlicesOfConcat(left, rest, idx);
    assert left[..idx] == xml[..idx];
    assert SpliceFrom(xml, runs, fulls, k - 1, b0) == xml[b0..idx] + fulls[k - 1] + rest;
    assert xml[..b0] + xml[b0..idx] == xml[..idx];
  }

  lemma SplitAt(s: string, b: nat)
    requires b <= |s|
    ensures s == s[..b] + s[b..]
  {
  }

  /**
    The document after the loop has replaced runs `k..`, from the last one back.
    A run that no longer fits in the document is skipped; `ReplaceFromIsSplice`
    shows that this never happens for placed runs.
   */
  function ReplaceFrom(xml: string, runs: seq<Run>, fulls: seq<string>, k: nat): string
    requires |fulls| == |runs| && k <= |runs|
    decreases |runs| - k
  {
    if k == |runs| then xml
    else
      var done := ReplaceFrom(xml, runs, fulls, k + 1);
      if runs[k].End() <= |done| then Replace(done, runs[k].indexInXml, |runs[k].FullMatch()|, fulls[k])
      else done
  }

  /** One step back: replacing run `k` in the spliced tail from run `k + 1` gives the tail from `k`. */
  lemma ReplaceFromStep(xml: string, runs: seq<Run>, fulls: seq<string>, k: nat)
    requires Placed(xml, runs) && |fulls| == |runs| && k < |runs|
    requires ReplaceFrom(xml, runs, fulls, k + 1) == SplicedTail(xml, runs, fulls, k + 1)
    ensures ReplaceFrom(xml, runs, fulls, k) == SplicedTail(xml, runs, fulls, k)
  {
    SpliceStep(xml, runs, fulls, k + 1);
  }

  /** The loop's document is the text up to run `k` followed by the left-to-right splice from there. */
  lemma {:induction false} ReplaceFromIsSplice(xml: string, runs: seq<Run>, fulls: seq<string>, k: nat)
    requires Placed(xml, runs) && |fulls| == |runs| && k <= |runs|
    ensures ReplaceFrom(xml, runs, fulls, k) == SplicedTail(xml, runs, fulls, k)
    decreases |runs| - k
  {
    if k == |runs| {
      BoundaryBelowEnd(xml, runs, k);
      SplitAt(xml, Boundary(runs, k));
    } else {
      ReplaceFromIsSplice(xml, runs, fulls, k + 1);
      ReplaceFromStep(xml, runs, fulls, k);
    }
  }

  /** Once every run is replaced, the loop's document is the left-to-right splice. */
  lemma RebuiltIsSplice(xml: string, runs: seq<Run>, fulls: seq<string>)
    requires Placed(xml, runs) && |fulls| == |runs|
    ensures ReplaceFrom(xml, runs, fulls, 0) == SpliceFrom(xml, runs, fulls, 0, 0)
  {
    ReplaceFromIsSplice(xml, runs, fulls, 0);
    assert xml[..0] == "";
  }

  /** Run `k` fits in the loop's document once the runs after it are replaced. */
  lemma RebuildFits(xml: string, runs: seq<Run>, fulls: seq<string>, k: nat)
    requires Placed(xml, runs) && |fulls| == |runs| && k < |runs|
    ensures runs[k].End() <= |ReplaceFrom(xml, runs, fulls, k + 1)|
  {
    ReplaceFromIsSplice(xml, runs, fulls, k + 1);
    SpliceStep(xml, runs, fulls, k + 1);
  }

  /** The loop body keeps its invariant: replacing run `k` in the state after run `k + 1` is the state after run `k`. */
  lemma RebuildStep(xml: string, runs: seq<Run>, fulls: seq<string>, k: nat, prior: string, next: string)
    requires Placed(xml, runs) && |fulls| == |runs| && k < |runs|
    requires prior == ReplaceFrom(xml, runs, fulls, k + 1) && runs[k].End() <= |prior|
    requires next == Replace(prior, runs[k].indexInXml, |runs[k].FullMatch()|, fulls[k])
    ensures next == ReplaceFrom(xml, runs, fulls, k)
  {
  }

  /**
    The rebuild loop, from the last run to the first, each step cutting
    the document at the run's offset and splicing in the new full match. It
    builds exactly the left-to-right reading `Assemble`.
   */
  method RebuildXml(xml: string, runs: seq<Run>, texts: seq<string>) returns (rebuilt: string)
    requires Placed(xml, runs) && |texts| == |runs|
    ensures rebuilt == Assemble(xml, runs, texts)
  {
    ghost var fulls := NewFulls(runs, texts);
    rebuilt := xml;
    var k: nat := |runs|;
    while k > 0
      invariant k <= |runs|
      invariant rebuilt == ReplaceFrom(xml, runs, fulls, k)
    {
      k := k - 1;
      var run := runs[k];
      var newFull := NewFull(run, texts[k]);
      RebuildFits(xml, runs, fulls, k);
      ghost var prior := rebuilt;
      rebuilt := Replace(rebuilt, run.indexInXml, |run.FullMatch()|, newFull);
      RebuildStep(xml, runs, fulls, k, prior, rebuilt);
    }
    RebuiltIsSplice(xml, runs, fulls);
  }

  // ---------------------------------------------------------------- properties

  /** The texts of runs `k..` hold no character `escapeXml` replaces. */
  predicate PlainFrom(texts: seq<string>, k: nat) {
    forall m, c :: k <= m < |texts| && 0 <= c < |texts[m]| ==> !IsReserved(texts[m][c])
  }

  /** A run whose text holds no reserved character is rebuilt as it was. */
  lemma NewFullOfPlain(run: Run)
    requires forall c :: 0 <= c < |run.text| ==> !IsReserved(run.text[c])
    ensures NewFull(run, run.text) == run.FullMatch()
  {
    EscapeXmlOutput(run.text);
  }

  lemma ThreeSlices(s: string, a: nat, b: nat, c: nat)
    requires a <= b <= c <= |s|
    ensures s[a..] == s[a..b] + s[b..c] + s[c..]
  {
  }

  /** A plain run is rebuilt as the text it was scanned from. */
  lemma PlainRunRebuilt(xml: string, runs: seq<Run>, k: nat)
    requires WellPlaced(xml, runs) && k < |runs| && PlainFrom(Texts(runs), k)
    ensures NewFulls(runs, Texts(runs))[k] == xml[runs[k].indexInXml..runs[k].End()]
  {
    var run := runs[k];
    var texts := Texts(runs);
    assert texts[k] == run.text;
    assert forall c :: 0 <= c < |run.text| ==> !IsReserved(run.text[c]) by {
      forall c | 0 <= c < |run.text|
        ensures !IsReserved(run.text[c])
      {
        assert !IsReserved(texts[k][c]);
      }
    }
    NewFullOfPlain(run);
  }

  lemma AssembleOriginalStep(xml: string, runs: seq<Run>, k: nat, pos: nat)
    requires WellPlaced(xml, runs) && k < |runs| && pos <= runs[k].indexInXml
    requires PlainFrom(Texts(runs), k)
    requires SpliceFrom(xml, runs, NewFulls(runs, Texts(runs)), k + 1, runs[k].End()) == xml[runs[k].End()..]
    ensures SpliceFrom(xml, runs, NewFulls(runs, Texts(runs)), k, pos) == xml[pos..]
  {
    var fulls := NewFulls(runs, Texts(runs));
    var idx, end := runs[k].indexInXml, runs[k].End();
    PlainRunRebuilt(xml, runs, k);
    ThreeSlices(xml, pos, idx, end);
    assert SpliceFrom(xml, runs, fulls, k, pos) == xml[pos..idx] + fulls[k] + SpliceFrom(xml, runs, fulls, k + 1, end);
  }

  lemma {:induction false} AssembleOriginalFrom(xml: string, runs: seq<Run>, k: nat, pos: nat)
    requires WellPlaced(xml, runs) && k <= |runs| && pos <= |xml|
    requires k < |runs| ==> pos <= runs[k].indexInXml
    requires PlainFrom(Texts(runs), k)
    ensures SpliceFrom(xml, runs, NewFulls(runs, Texts(runs)), k, pos) == xml[pos..]
    decreases |runs| - k
  {
    if k < |runs| {
      assert PlainFrom(Texts(runs), k + 1);
      AssembleOriginalFrom(xml, runs, k + 1, runs[k].End());
      AssembleOriginalStep(xml, runs, k, pos);
    }
  }

  /**
    Rebuilding with every run's own text gives the document back, provided no
    run text holds a character `escapeXml` replaces; a run that already holds
    an entity such as `&amp;` is escaped a second time (see `DoubleEscape`).
   */
  lemma AssembleOriginal(xml: string, runs: seq<Run>)
    requires WellPlaced(xml, runs) && PlainFrom(Texts(runs), 0)
    ensures Assemble(xml, runs, Texts(runs)) == xml
  {
    AssembleOriginalFrom(xml, runs, 0, 0);
  }

  /**
    Run text is taken from the XML as it stands, so an entity already in it is
    escaped again: `&amp;` comes back as `&amp;amp;`, `&lt;` as `&amp;lt;`.
   */
  lemma DoubleEscape(name: string)
    requires forall k :: 0 <= k < |name| ==> !IsReserved(name[k])
    ensures EscapeXml("&" + name + ";") == "&amp;" + name + ";"
  {
    var tail := name + ";";
    assert forall k :: 0 <= k < |tail| ==> !IsReserved(tail[k]) by {
      forall k | 0 <= k < |tail|
        ensures !IsReserved(tail[k])
      {
        if k < |name| {
          assert tail[k] == name[k];
        }
      }
    }
    var s := "&" + tail;
    assert s == "&" + name + ";";
    assert s[0] == '&' && s[1..] == tail;
    EscapeEachPlain(tail);
    ReplaceChainIsPerCharacter(s);
    assert EscapeEach(s) == EntityOf('&') + EscapeEach(tail);
  }
}

=== FILE: run_scanner.dfy ===
/**
  The run scanner of app/api/upload/route.ts: the global, case-insensitive
  expression `(<w:t[^>]*>)([\s\S]*?)(<\/w:t>)` applied repeatedly to the text of
  `word/document.xml`, each match becoming one run that keeps its opening tag,
  its text, its closing tag and the offset where the match starts.
 */
module RunScanner {
  import opened Options
  import opened Text

  /** One `<w:t…>text</w:t>` match. */
  datatype Run = Run(openTag: string, text: string, closeTag: string, indexInXml: nat) {

    /** The whole match, `m[0]` in the source. */
    function FullMatch(): string {
      openTag + text + closeTag
    }

    /** The offset just after the match. */
    function End(): nat {
      indexInXml + |FullMatch()|
    }
  }

  /** The start of an opening tag, compared without regard to ASCII case. */
  const OpenTagStart := "<w:t"
  /** The closing tag, compared without regard to ASCII case. */
  const CloseTag := "</w:t>"

  /** `pattern` (written in lower case) occurs at `p` in `s`, ignoring ASCII case as the `i` flag does. */
  predicate MatchesAt(s: string, p: nat, pattern: string) {
    p + |pattern| <= |s| && forall k :: 0 <= k < |pattern| ==> LowerChar(s[p + k]) == pattern[k]
  }

  /** The first position at or after `from` where a closing tag starts: the lazy `[\s\S]*?`. */
  function FindCloseTag(xml: string, from: nat): (r: Option<nat>)
    ensures r.Some? ==> from <= r.value && MatchesAt(xml, r.value, CloseTag)
    ensures r.Some? ==> forall c :: from <= c < r.value ==> !MatchesAt(xml, c, CloseTag)
    ensures r.None? ==> forall c :: from <= c ==> !MatchesAt(xml, c, CloseTag)
    decreases |xml| - from
  {
    if from + |CloseTag| > |xml| then None
    else if MatchesAt(xml, from, CloseTag) then Some(from)
    else FindCloseTag(xml, from + 1)
  }

  /**
    `run` is the match found at `p`: it is the slice of the document there; its
    opening tag is `<w:t` (any case) up to the first `>`; its closing tag is the
    first one after that.
   */
  predicate IsRunAt(xml: string, p: nat, run: Run) {
    && run.indexInXml == p && run.End() <= |xml|
    && xml[p..run.End()] == run.FullMatch()
    && |run.openTag| >= |OpenTagStart| + 1
    && MatchesAt(xml, p, OpenTagStart)
    && run.openTag[|run.openTag| - 1] == '>'
    && (forall k :: p + |OpenTagStart| <= k < p + |run.openTag| - 1 ==> xml[k] != '>')
    && |run.closeTag| == |CloseTag| && MatchesAt(xml, run.End() - |CloseTag|, CloseTag)
    && (forall c :: p + |run.openTag| <= c < run.End() - |CloseTag| ==> !MatchesAt(xml, c, CloseTag))
  }

  /** An opening tag starts at `p`, a `>` follows it, and a closing tag follows that. */
  predicate HasMatchAt(xml: string, p: nat) {
    MatchesAt(xml, p, OpenTagStart)
    && exists q, c :: p + |OpenTagStart| <= q < c < |xml| && xml[q] == '>' && MatchesAt(xml, c, CloseTag)
  }

  /**
    The match the expression finds when it is tried at exactly position `p`:
    the opening tag runs to the first `>` after `<w:t`, and the text to the first
    closing tag after that. There is one exactly when `<w:t`, a later `>` and a
    closing tag after that are there.
   */
  function MatchAt(xml: string, p: nat): (r: Option<Run>)
    ensures r.Some? <==> HasMatchAt(xml, p)
    ensures r.Some? ==> IsRunAt(xml, p, r.value)
    ensures !MatchesAt(xml, p, OpenTagStart) ==> r.None?
  {
    if !MatchesAt(xml, p, OpenTagStart) then None
    else match IndexOfFrom(xml, '>', p + |OpenTagStart|)
      case None =>
        NoGreaterNoMatch(xml, p);
        None
      case Some(q) =>
        match FindCloseTag(xml, q + 1)
        case None =>
          NoCloseNoMatch(xml, p, q);
          None
        case Some(c) =>
          CloseMeansMatch(xml, p, q, c);
          Some(CutRun(xml, p, q, c))
  }

  /**
    The run cut out of `xml` by an opening tag at `p` whose first `>` is at `q`
    and the first closing tag after it, at `c`.
   */
  function CutRun(xml: string, p: nat, q: nat, c: nat): (run: Run)
    requires MatchesAt(xml, p, OpenTagStart) && MatchesAt(xml, c, CloseTag)
    requires p + |OpenTagStart| <= q < c && xml[q] == '>'
    requires forall k :: p + |OpenTagStart| <= k < q ==> xml[k] != '>'
    requires forall k :: q + 1 <= k < c ==> !MatchesAt(xml, k, CloseTag)
    ensures IsRunAt(xml, p, run) && run.End() == c + |CloseTag|
  {
    var e := c + |CloseTag|;
    SliceThree(xml, p, q + 1, c, e);
    var run := Run(xml[p..q + 1], xml[q + 1..c], xml[c..e], p);
    assert run.End() == e && run.End() - |CloseTag| == c;
    assert p + |run.openTag| == q + 1;
    assert run.openTag[|run.openTag| - 1] == xml[q];
    run
  }

  /** Three adjacent slices put together are the slice they span. */
  lemma SliceThree(s: string, a: nat, b: nat, c: nat, d: nat)
    requires a <= b <= c <= d <= |s|
    ensures s[a..b] + s[b..c] + s[c..d] == s[a..d]
  {
  }

  /**
    The opening tag `<w:t[^>]*>` is loose: it also opens at `<w:tab/>`, and the
    run's text then takes in the real `<w:t>` tag up to the next closing tag.
   */
  lemma LooseOpenTagExample()
    ensures MatchAt(LooseXml(), 0) == Some(Run("<w:tab/>", "<w:t>x", "</w:t>", 0))
  {
    LooseMatchSlices();
    LooseSlices();
  }

  /** The match at 0 cuts the document at the first `>` (7) and the closing tag (14). */
  lemma LooseMatchSlices()
    ensures var xml := LooseXml(); MatchAt(xml, 0) == Some(Run(xml[0..8], xml[8..14], xml[14..20], 0))
  {
    LooseOpenTagFound();
    LooseCloseTagFound();
  }

  lemma LooseSlices()
    ensures var xml := LooseXml(); xml[0..8] == "<w:tab/>" && xml[8..14] == "<w:t>x" && xml[14..20] == "</w:t>"
  {
  }

  /** A tab element followed by a text run. */
  function LooseXml(): string { "<w:tab/><w:t>x</w:t>" }

  lemma LooseOpenTagFound()
    ensures MatchesAt(LooseXml(), 0, OpenTagStart)
    ensures IndexOfFrom(LooseXml(), '>', |OpenTagStart|) == Some(7)
  {
    var xml := LooseXml();
    assert LowerChar(xml[0]) == '<' && LowerChar(xml[1]) == 'w' && LowerChar(xml[2]) == ':' && LowerChar(xml[3]) == 't';
    assert IndexOfFrom(xml, '>', 7) == Some(7);
    assert IndexOfFrom(xml, '>', 6) == Some(7);
    assert IndexOfFrom(xml, '>', 5) == Some(7);
  }

  lemma LooseCloseTagFound()
    ensures FindCloseTag(LooseXml(), 8) == Some(14)
  {
    var xml := LooseXml();
    LooseCloseTagAt();
    assert forall k :: 8 <= k < 14 ==> !EndTagOpens(xml, k);
    FindCloseAt(xml, 8, 14);
  }

  lemma LooseCloseTagAt()
    ensures MatchesAt(LooseXml(), 14, CloseTag)
  {
    var xml := LooseXml();
    assert LowerChar(xml[14]) == '<' && LowerChar(xml[15]) == '/' && LowerChar(xml[16]) == 'w';
    assert LowerChar(xml[17]) == ':' && LowerChar(xml[18]) == 't' && LowerChar(xml[19]) == '>';
  }

  /**
    The search finds the closing tag at `c` when no `</` starts between `from`
    and `c`.
   */
  lemma {:induction false} FindCloseAt(xml: string, from: nat, c: nat)
    requires from <= c && MatchesAt(xml, c, CloseTag)
    requires forall k :: from <= k < c ==> !EndTagOpens(xml, k)
    ensures FindCloseTag(xml, from) == Some(c)
    decreases c - from
  {
    if from == c {
      FindCloseHere(xml, c);
    } else {
      FindCloseSkips(xml, from);
      FindCloseAt(xml, from + 1, c);
    }
  }

  /** The search stops at once on a closing tag. */
  lemma FindCloseHere(xml: string, c: nat)
    requires MatchesAt(xml, c, CloseTag)
    ensures FindCloseTag(xml, c) == Some(c)
  {
  }

  /** `</` starts at `k`. */
  predicate EndTagOpens(xml: string, k: nat) {
    k + 1 < |xml| && xml[k] == '<' && xml[k + 1] == '/'
  }

  /** A position where no `</` starts is skipped by the search. */
  lemma FindCloseSkips(xml: string, from: nat)
    requires from + |CloseTag| <= |xml| && !EndTagOpens(xml, from)
    ensures FindCloseTag(xml, from) == FindCloseTag(xml, from + 1)
  {
    NotCloseAt(xml, from, if xml[from] != '<' then 0 else 1);
  }

  /** A character that differs from the closing tag's rules out a closing tag at `c`. */
  lemma NotCloseAt(xml: string, c: nat, k: nat)
    requires k < |CloseTag| && c + k < |xml| && LowerChar(xml[c + k]) != CloseTag[k]
    ensures !MatchesAt(xml, c, CloseTag)
  {
  }

  /** A `>` after the opening tag with a closing tag after it makes a match. */
  lemma CloseMeansMatch(xml: string, p: nat, q: nat, c: nat)
    requires MatchesAt(xml, p, OpenTagStart)
    requires p + |OpenTagStart| <= q < c < |xml| && xml[q] == '>' && MatchesAt(xml, c, CloseTag)
    ensures HasMatchAt(xml, p)
  {
  }

  /** With no `>` after the opening tag there is no match. */
  lemma NoGreaterNoMatch(xml: string, p: nat)
    requires IndexOfFrom(xml, '>', p + |OpenTagStart|) == None
    ensures !HasMatchAt(xml, p)
  {
  }

  /** With no closing tag after the first `>`, there is none after any later `>` either. */
  lemma NoCloseNoMatch(xml: string, p: nat, q: nat)
    requires IndexOfFrom(xml, '>', p + |OpenTagStart|) == Some(q)
    requires forall c :: q + 1 <= c ==> !MatchesAt(xml, c, CloseTag)
    ensures !HasMatchAt(xml, p)
  {
  }

  /** Every match position from `from` on lies inside one of the runs found. */
  ghost predicate Covers(xml: string, from: nat, runs: seq<Run>) {
    forall p :: from <= p < |xml| && MatchAt(xml, p).Some? ==> InSomeRun(runs, p)
  }

  /** Offset `p` lies inside one of `runs`. */
  predicate InSomeRun(runs: seq<Run>, p: nat) {
    exists k :: 0 <= k < |runs| && runs[k].indexInXml <= p < runs[k].End()
  }

  lemma InSomeRunCons(run: Run, rest: seq<Run>, p: nat)
    requires run.indexInXml <= p < run.End() || InSomeRun(rest, p)
    ensures InSomeRun([run] + rest, p)
  {
    var runs := [run] + rest;
    if run.indexInXml <= p < run.End() {
      assert runs[0] == run;
    } else {
      var k :| 0 <= k < |rest| && rest[k].indexInXml <= p < rest[k].End();
      assert runs[k + 1] == rest[k];
    }
  }

  /** The runs lie inside `xml`, each non-empty, in increasing order without overlapping. */
  predicate Placed(xml: string, runs: seq<Run>) {
    && (forall k :: 0 <= k < |runs| ==> runs[k].indexInXml < runs[k].End() <= |xml|)
    && (forall a, b :: 0 <= a < b < |runs| ==> runs[a].End() <= runs[b].indexInXml)
  }

  /** The runs are placed, and each is exactly the text of `xml` at its offset. */
  predicate WellPlaced(xml: string, runs: seq<Run>) {
    && Placed(xml, runs)
    && (forall k :: 0 <= k < |runs| ==> xml[runs[k].indexInXml..runs[k].End()] == runs[k].FullMatch())
  }

  /** What `ScanFrom` promises about the runs it returns. */
  ghost predicate ScanResult(xml: string, from: nat, runs: seq<Run>) {
    && (forall k :: 0 <= k < |runs| ==> from <= runs[k].indexInXml && MatchAt(xml, runs[k].indexInXml) == Some(runs[k]))
    && WellPlaced(xml, runs)
    && Covers(xml, from, runs)
  }

  lemma ScanSkip(xml: string, from: nat, rest: seq<Run>)
    requires from < |xml| && MatchAt(xml, from).None?
    requires ScanResult(xml, from + 1, rest)
    ensures ScanResult(xml, from, rest)
  {
    forall p | from <= p < |xml| && MatchAt(xml, p).Some?
      ensures InSomeRun(rest, p)
    {
      assert p != from;
    }
  }

  /** A run placed before all of `rest` extends its placement. */
  lemma PlacedCons(xml: string, run: Run, rest: seq<Run>)
    requires run.indexInXml < run.End() <= |xml|
    requires forall k :: 0 <= k < |rest| ==> run.End() <= rest[k].indexInXml
    requires Placed(xml, rest)
    ensures Placed(xml, [run] + rest)
  {
    var runs := [run] + rest;
    forall a, b | 0 <= a < b < |runs|
      ensures runs[a].End() <= runs[b].indexInXml
    {
      assert runs[b] == rest[b - 1];
      if a > 0 {
        assert runs[a] == rest[a - 1];
      }
    }
    forall k | 0 <= k < |runs|
      ensures runs[k].indexInXml < runs[k].End() <= |xml|
    {
      if k > 0 {
        assert runs[k] == rest[k - 1];
      }
    }
  }

  lemma ScanTakePlaced(xml: string, run: Run, rest: seq<Run>)
    requires run.indexInXml < run.End() <= |xml|
    requires xml[run.indexInXml..run.End()] == run.FullMatch()
    requires forall k :: 0 <= k < |rest| ==> run.End() <= rest[k].indexInXml
    requires WellPlaced(xml, rest)
    ensures WellPlaced(xml, [run] + rest)
  {
    PlacedCons(xml, run, rest);
    var runs := [run] + rest;
    forall k | 0 <= k < |runs|
      ensures xml[runs[k].indexInXml..runs[k].End()] == runs[k].FullMatch()
    {
      if k > 0 {
        assert runs[k] == rest[k - 1];
      }
    }
  }

  lemma ScanTakeCovers(xml: string, from: nat, run: Run, rest: seq<Run>)
    requires run.indexInXml == from < run.End()
    requires Covers(xml, run.End(), rest)
    ensures Covers(xml, from, [run] + rest)
  {
    forall p | from <= p < |xml| && MatchAt(xml, p).Some?
      ensures InSomeRun([run] + rest, p)
    {
      InSomeRunCons(run, rest, p);
    }
  }

  lemma ScanTakeMatches(xml: string, from: nat, run: Run, rest: seq<Run>)
    requires MatchAt(xml, from) == Some(run) && from < run.End()
    requires forall k :: 0 <= k < |rest| ==> run.End() <= rest[k].indexInXml && MatchAt(xml, rest[k].indexInXml) == Some(rest[k])
    ensures forall k :: 0 <= k < |[run] + rest| ==>
      from <= ([run] + rest)[k].indexInXml && MatchAt(xml, ([run] + rest)[k].indexInXml) == Some(([run] + rest)[k])
  {
    var runs := [run] + rest;
    forall k | 0 <= k < |runs|
      ensures from <= runs[k].indexInXml && MatchAt(xml, runs[k].indexInXml) == Some(runs[k])
    {
      if k > 0 {
        assert runs[k] == rest[k - 1];
      }
    }
  }

  lemma ScanTake(xml: string, from: nat, run: Run, rest: seq<Run>)
    requires from < |xml| && MatchAt(xml, from) == Some(run)
    requires ScanResult(xml, run.End(), rest)
    ensures ScanResult(xml, from, [run] + rest)
  {
    ScanTakeMatches(xml, from, run, rest);
    ScanTakePlaced(xml, run, rest);
    ScanTakeCovers(xml, from, run, rest);
  }

  /**
    The `while ((m = wTRegex.exec(xml)) !== null)` loop from `lastIndex = from`:
    the leftmost match is taken and the search resumes where it ends.
   */
  function ScanFrom(xml: string, from: nat): (runs: seq<Run>)
    ensures ScanResult(xml, from, runs)
    decreases |xml| - from
  {
    if from >= |xml| then []
    else match MatchAt(xml, from)
      case None =>
        var rest := ScanFrom(xml, from + 1);
        ScanSkip(xml, from, rest);
        rest
      case Some(run) =>
        var rest := ScanFrom(xml, run.End());
        ScanTake(xml, from, run, rest);
        [run] + rest
  }

  /**
    All runs of `xml` in document order: they are exactly the matches of the
    expression, placed without overlap, and no match start is skipped except
    inside an earlier match.
   */
  function Scan(xml: string): (runs: seq<Run>)
    ensures forall k :: 0 <= k < |runs| ==> MatchAt(xml, runs[k].indexInXml) == Some(runs[k])
    ensures WellPlaced(xml, runs)
    ensures forall p :: 0 <= p < |xml| && MatchAt(xml, p).Some? ==>
      exists k :: 0 <= k < |runs| && runs[k].indexInXml <= p < runs[k].End()
  {
    ScanFrom(xml, 0)
  }

  /** `matches.map(x => x.text)`: the texts before any rewriting. */
  function Texts(runs: seq<Run>): (t: seq<string>)
    ensures |t| == |runs| && forall k :: 0 <= k < |runs| ==> t[k] == runs[k].text
  {
    seq(|runs|, k requires 0 <= k < |runs| => runs[k].text)
  }

  /** Offsets of well-placed runs strictly increase, so run order is document order. */
  lemma WellPlacedAscending(xml: string, runs: seq<Run>)
    requires WellPlaced(xml, runs)
    ensures forall a, b :: 0 <= a < b < |runs| ==> runs[a].indexInXml < runs[b].indexInXml
  {
  }
}

=== FILE: text.dfy ===
/**
  The JavaScript string operations the placeholder code relies on, stated over
  `seq<char>`: the `\s` character class (which `String.prototype.trim` shares),
  `indexOf` for one character, `substring` with its argument swap, `includes`,
  `toLowerCase` restricted to ASCII, `replace(/\s+/g, ' ')` and `trim()`.
 */
module Text {
  import opened Options

  /** The characters matched by JavaScript's `\s` and removed by `trim()`. */
  predicate IsSpace(c: char) {
    || c == '\t' || c == '\n' || c == '\U{000B}' || c == '\U{000C}' || c == '\r' || c == ' '
    || c == '\U{00A0}' || c == '\U{1680}' || ('\U{2000}' <= c <= '\U{200A}')
    || c == '\U{2028}' || c == '\U{2029}' || c == '\U{202F}' || c == '\U{205F}'
    || c == '\U{3000}' || c == '\U{FEFF}'
  }

  const Nbsp: char := '\U{00A0}'

  predicate NotSpace(c: char) { !IsSpace(c) }

  predicate AllSpaces(s: string) {
    forall k :: 0 <= k < |s| ==> IsSpace(s[k])
  }

  // ---------------------------------------------------------------- indexOf

  /** `s.indexOf(c, from)`, with `None` for JavaScript's -1. */
  function IndexOfFrom(s: string, c: char, from: nat): (r: Option<nat>)
    ensures r.Some? ==> from <= r.value < |s| && s[r.value] == c
    ensures r.Some? ==> forall k :: from <= k < r.value ==> s[k] != c
    ensures r.None? <==> forall k :: from <= k < |s| ==> s[k] != c
    decreases |s| - from
  {
    if from >= |s| then None
    else if s[from] == c then Some(from)
    else IndexOfFrom(s, c, from + 1)
  }

  /** `s.indexOf(c)`: the first position of `c`, if any. */
  function IndexOf(s: string, c: char): (r: Option<nat>)
    ensures r.None? <==> c !in s
    ensures r.Some? ==> r.value < |s| && s[r.value] == c && c !in s[..r.value]
  {
    IndexOfFrom(s, c, 0)
  }

  // ---------------------------------------------------------------- substring

  function Min(a: int, b: int): int { if a <= b then a else b }
  function Max(a: int, b: int): int { if a <= b then b else a }

  /**
    `s.substring(a, b)`: both arguments are clamped to the length and, when the
    first exceeds the second, they are swapped.
   */
  function Substring(s: string, a: nat, b: nat): (r: string)
    ensures a <= b <= |s| ==> r == s[a..b]
    ensures b <= a <= |s| ==> r == s[b..a]
    ensures |r| <= |s|
  {
    var lo := Min(Min(a, b), |s|);
    var hi := Min(Max(a, b), |s|);
    s[lo..hi]
  }

  // ---------------------------------------------------------------- includes

  /** `s.includes(sub)`. */
  predicate Contains(s: string, sub: string) {
    exists k :: 0 <= k <= |s| - |sub| && OccursAt(s, sub, k)
  }

  predicate OccursAt(s: string, sub: string, k: nat) {
    k + |sub| <= |s| && s[k..k + |sub|] == sub
  }

  // ---------------------------------------------------------------- toLowerCase

  function LowerChar(c: char): char {
    if 'A' <= c <= 'Z' then (c as int + 32) as char else c
  }

  /** `s.toLowerCase()` for ASCII letters; every other character is kept. */
  function Lower(s: string): (r: string)
    ensures |r| == |s|
  {
    seq(|s|, k requires 0 <= k < |s| => LowerChar(s[k]))
  }

  // ---------------------------------------------------------------- filtering

  /** The characters of `s` that satisfy `keep`, in order (a global `replace` by ""). */
  function Filter(s: string, keep: char -> bool): (r: string)
    ensures forall k :: 0 <= k < |r| ==> keep(r[k])
    ensures |r| <= |s|
    ensures (forall k :: 0 <= k < |s| ==> keep(s[k])) ==> r == s
  {
    if |s| == 0 then ""
    else (if keep(s[0]) then [s[0]] else "") + Filter(s[1..], keep)
  }

  lemma {:induction false} FilterConcat(a: string, b: string, keep: char -> bool)
    ensures Filter(a + b, keep) == Filter(a, keep) + Filter(b, keep)
  {
    if |a| == 0 {
      assert a + b == b;
    } else {
      assert (a + b)[0] == a[0];
      assert (a + b)[1..] == a[1..] + b;
      FilterConcat(a[1..], b, keep);
    }
  }

  /** A character survives the filter exactly when it occurs in `s` and passes `keep`. */
  lemma {:induction false} FilterMembers(s: string, keep: char -> bool)
    ensures forall c :: c in Filter(s, keep) <==> c in s && keep(c)
  {
    if |s| > 0 {
      FilterMembers(s[1..], keep);
      assert s == [s[0]] + s[1..];
    }
  }

  /** `s.replace(/\s/g, '')`. */
  function RemoveSpaces(s: string): string {
    Filter(s, NotSpace)
  }

  lemma RemoveSpacesOfSpaces(s: string)
    requires AllSpaces(s)
    ensures RemoveSpaces(s) == ""
  {
    if |s| > 0 {
      RemoveSpacesOfSpaces(s[1..]);
    }
  }

  // ---------------------------------------------------------------- trim

  /** How many white-space characters `s` starts with. */
  function LeadingSpaces(s: string): (n: nat)
    ensures n <= |s|
    ensures AllSpaces(s[..n])
    ensures n < |s| ==> !IsSpace(s[n])
  {
    if |s| == 0 || !IsSpace(s[0]) then 0 else 1 + LeadingSpaces(s[1..])
  }

  /** How many white-space characters `s` ends with. */
  function TrailingSpaces(s: string): (n: nat)
    ensures n <= |s|
    ensures AllSpaces(s[|s| - n..])
    ensures n < |s| ==> !IsSpace(s[|s| - n - 1])
  {
    if |s| == 0 || !IsSpace(s[|s| - 1]) then 0
    else
      var init := s[..|s| - 1];
      var n := TrailingSpaces(init);
      assert s[|s| - (n + 1)..] == init[|init| - n..] + [s[|s| - 1]];
      1 + n
  }

  /** `r` is one slice of `s` with only white space cut away on either side of it. */
  ghost predicate TrimmedFrom(r: string, s: string) {
    exists a, b :: 0 <= a <= b <= |s| && r == s[a..b] && AllSpaces(s[..a]) && AllSpaces(s[b..])
  }

  /**
    `s.trim()`: the longest slice of `s` that neither starts nor ends with white
    space, everything cut away being white space.
   */
  function Trim(s: string): (r: string)
    ensures |r| > 0 ==> !IsSpace(r[0]) && !IsSpace(r[|r| - 1])
    ensures exists a, b :: 0 <= a <= b <= |s| && r == s[a..b] && AllSpaces(s[..a]) && AllSpaces(s[b..])
  {
    var a := LeadingSpaces(s);
    var t := s[a..];
    var b := |t| - TrailingSpaces(t);
    assert t[..b] == s[a..a + b];
    assert s[a + b..] == t[b..];
    t[..b]
  }

  lemma TrimOfTrimmed(s: string)
    requires |s| > 0 ==> !IsSpace(s[0]) && !IsSpace(s[|s| - 1])
    ensures Trim(s) == s
  {
    assert s[0..] == s;
  }

  lemma {:induction false} RemoveSpacesOfTrim(s: string)
    ensures RemoveSpaces(Trim(s)) == RemoveSpaces(s)
  {
    var a, b :| 0 <= a <= b <= |s| && Trim(s) == s[a..b] && AllSpaces(s[..a]) && AllSpaces(s[b..]);
    assert s == s[..a] + s[a..b] + s[b..];
    FilterConcat(s[..a] + s[a..b], s[b..], NotSpace);
    FilterConcat(s[..a], s[a..b], NotSpace);
    RemoveSpacesOfSpaces(s[..a]);
    RemoveSpacesOfSpaces(s[b..]);
  }

  // ---------------------------------------------------------------- collapse

  /** `s.replace(/\s+/g, ' ')`: every maximal run of white space becomes one space. */
  function Collapse(s: string): (r: string)
    ensures |s| > 0 ==> |r| > 0 && (IsSpace(s[0]) ==> r[0] == ' ') && (!IsSpace(s[0]) ==> r[0] == s[0])
    decreases |s|
  {
    if |s| == 0 then ""
    else if IsSpace(s[0]) then " " + Collapse(s[LeadingSpaces(s)..])
    else [s[0]] + Collapse(s[1..])
  }

  /** Collapsing leaves single spaces only, never two white-space characters in a row. */
  lemma {:induction false} CollapseShape(s: string)
    ensures forall k :: 0 <= k < |Collapse(s)| && IsSpace(Collapse(s)[k]) ==> Collapse(s)[k] == ' '
    ensures forall k :: 0 <= k < |Collapse(s)| - 1 ==> !(IsSpace(Collapse(s)[k]) && IsSpace(Collapse(s)[k + 1]))
    decreases |s|
  {
    if |s| == 0 {
    } else if IsSpace(s[0]) {
      var n := LeadingSpaces(s);
      CollapseShape(s[n..]);
    } else {
      CollapseShape(s[1..]);
    }
  }

  /** Collapsing keeps every non-space character, in order. */
  lemma {:induction false} CollapseKeepsContent(s: string)
    ensures RemoveSpaces(Collapse(s)) == RemoveSpaces(s)
    decreases |s|
  {
    if |s| == 0 {
    } else if IsSpace(s[0]) {
      var n := LeadingSpaces(s);
      CollapseKeepsContent(s[n..]);
      assert s == s[..n] + s[n..];
      DropLeadingSpaces(s[..n], s[n..]);
      DropLeadingSpaces(" ", Collapse(s[n..]));
    } else {
      CollapseKeepsContent(s[1..]);
      assert s == [s[0]] + s[1..];
      KeepHead(s[0], s[1..]);
      KeepHead(s[0], Collapse(s[1..]));
    }
  }

  /** The count of leading white space is the one place where white space stops. */
  lemma {:induction false} LeadingSpacesUnique(s: string, m: nat)
    requires m <= |s| && AllSpaces(s[..m])
    requires m < |s| ==> !IsSpace(s[m])
    ensures LeadingSpaces(s) == m
    decreases m
  {
    if m > 0 {
      assert s[..m][0] == s[0];
      assert s[1..][..m - 1] == s[..m][1..];
      LeadingSpacesUnique(s[1..], m - 1);
    }
  }

  /**
    Collapsing works piece by piece wherever the cut does not fall inside a run
    of white space: at least one side of the cut is not white space.
   */
  lemma {:induction false} CollapseConcat(a: string, b: string)
    requires |a| == 0 || |b| == 0 || !IsSpace(a[|a| - 1]) || !IsSpace(b[0])
    ensures Collapse(a + b) == Collapse(a) + Collapse(b)
    decreases |a|
  {
    if |a| == 0 {
      assert a + b == b;
    } else if !IsSpace(a[0]) {
      var t := a[1..];
      assert |t| == 0 || t[|t| - 1] == a[|a| - 1];
      CollapseConcat(t, b);
      ConcatStepChar(a, b);
    } else if LeadingSpaces(a) < |a| {
      var t := a[LeadingSpaces(a)..];
      assert t[|t| - 1] == a[|a| - 1];
      CollapseConcat(t, b);
      ConcatStepRun(a, b);
    } else {
      assert a[..|a|][|a| - 1] == a[|a| - 1];
      LeadingRunWhole(a, b);
    }
  }

  /** The step of `CollapseConcat` past a non-space first character. */
  lemma ConcatStepChar(a: string, b: string)
    requires |a| > 0 && !IsSpace(a[0])
    requires Collapse(a[1..] + b) == Collapse(a[1..]) + Collapse(b)
    ensures Collapse(a + b) == Collapse(a) + Collapse(b)
  {
    CollapseHead(a, b);
    ConcatAssociates([a[0]], Collapse(a[1..]), Collapse(b));
  }

  /** The step of `CollapseConcat` past a white-space run that stops inside `a`. */
  lemma ConcatStepRun(a: string, b: string)
    requires |a| > 0 && IsSpace(a[0]) && LeadingSpaces(a) < |a|
    requires Collapse(a[LeadingSpaces(a)..] + b) == Collapse(a[LeadingSpaces(a)..]) + Collapse(b)
    ensures Collapse(a + b) == Collapse(a) + Collapse(b)
  {
    var n := LeadingSpaces(a);
    LeadingRunInside(a, b);
    assert (a + b)[0] == a[0];
    ConcatAssociates(" ", Collapse(a[n..]), Collapse(b));
  }

  lemma ConcatAssociates(a: string, b: string, c: string)
    ensures a + (b + c) == a + b + c
  {
  }

  /** A non-space first character is kept and the rest collapsed on its own. */
  lemma CollapseHead(a: string, b: string)
    requires |a| > 0 && !IsSpace(a[0])
    ensures Collapse(a + b) == [a[0]] + Collapse(a[1..] + b)
    ensures Collapse(a) == [a[0]] + Collapse(a[1..])
  {
    assert (a + b)[0] == a[0];
    assert (a + b)[1..] == a[1..] + b;
  }

  /** White space at the head of `a` that stops inside `a` stops at the same place in `a + b`. */
  lemma LeadingRunInside(a: string, b: string)
    requires LeadingSpaces(a) < |a|
    ensures LeadingSpaces(a + b) == LeadingSpaces(a)
    ensures (a + b)[LeadingSpaces(a)..] == a[LeadingSpaces(a)..] + b
  {
    var n := LeadingSpaces(a);
    assert (a + b)[..n] == a[..n];
    LeadingSpacesUnique(a + b, n);
  }

  /** An all-white-space `a` in front of a `b` that does not start with white space is one space. */
  lemma LeadingRunWhole(a: string, b: string)
    requires |a| > 0 && LeadingSpaces(a) == |a|
    requires |b| == 0 || !IsSpace(b[0])
    ensures Collapse(a) == " " && Collapse(a + b) == " " + Collapse(b)
  {
    var n := |a|;
    assert (a + b)[..n] == a[..n];
    LeadingSpacesUnique(a + b, n);
    assert (a + b)[n..] == b;
    assert a[n..] == "";
  }

  /** A non-empty run of white space collapses to exactly one space. */
  lemma CollapseSpaces(w: string)
    requires |w| > 0 && AllSpaces(w)
    ensures Collapse(w) == " "
  {
    assert w[..|w|] == w;
    LeadingSpacesUnique(w, |w|);
    assert w[|w|..] == "";
  }

  /**
    A run of white space between two pieces that do not touch it with white
    space of their own becomes one space, whatever its length or its characters.
   */
  lemma CollapseJoin(a: string, w: string, b: string)
    requires |w| > 0 && AllSpaces(w)
    requires |a| == 0 || !IsSpace(a[|a| - 1])
    requires |b| == 0 || !IsSpace(b[0])
    ensures Collapse(a + w + b) == Collapse(a) + " " + Collapse(b)
  {
    CollapseConcat(a, w);
    CollapseConcat(a + w, b);
    CollapseSpaces(w);
  }

  /** A string that ends in a non-space character collapses to one that ends in it too. */
  lemma CollapseLast(s: string)
    requires |s| > 0 && !IsSpace(s[|s| - 1])
    ensures |Collapse(s)| > 0 && Collapse(s)[|Collapse(s)| - 1] == s[|s| - 1]
  {
    var init, last := s[..|s| - 1], [s[|s| - 1]];
    assert s == init + last;
    CollapseConcat(init, last);
    assert last[1..] == "";
  }

  /**
    Cleaning two pieces that start and end with non-space characters, joined
    by any run of white space, gives the two cleaned pieces joined by one space.
   */
  lemma CollapseTrimJoin(a: string, w: string, b: string)
    requires |w| > 0 && AllSpaces(w)
    requires |a| > 0 && !IsSpace(a[0]) && !IsSpace(a[|a| - 1])
    requires |b| > 0 && !IsSpace(b[0]) && !IsSpace(b[|b| - 1])
    ensures CollapseTrim(a + w + b) == CollapseTrim(a) + " " + CollapseTrim(b)
  {
    CollapseJoin(a, w, b);
    CollapseLast(a);
    CollapseLast(b);
    TrimOfTrimmed(Collapse(a));
    TrimOfTrimmed(Collapse(b));
    TrimOfTrimmed(Collapse(a) + " " + Collapse(b));
  }

  lemma DropLeadingSpaces(lead: string, rest: string)
    requires AllSpaces(lead)
    ensures RemoveSpaces(lead + rest) == RemoveSpaces(rest)
  {
    FilterConcat(lead, rest, NotSpace);
    RemoveSpacesOfSpaces(lead);
  }

  lemma KeepHead(c: char, rest: string)
    requires !IsSpace(c)
    ensures RemoveSpaces([c] + rest) == [c] + RemoveSpaces(rest)
  {
    FilterConcat([c], rest, NotSpace);
  }

  /** A slice of a collapsed string is still free of doubled or non-space white space. */
  lemma SliceKeepsShape(c: string, a: nat, b: nat)
    requires a <= b <= |c|
    requires forall k :: 0 <= k < |c| && IsSpace(c[k]) ==> c[k] == ' '
    requires forall k :: 0 <= k < |c| - 1 ==> !(IsSpace(c[k]) && IsSpace(c[k + 1]))
    ensures forall k :: 0 <= k < b - a && IsSpace(c[a..b][k]) ==> c[a..b][k] == ' '
    ensures forall k :: 0 <= k < b - a - 1 ==> !(IsSpace(c[a..b][k]) && IsSpace(c[a..b][k + 1]))
  {
    forall k | 0 <= k < b - a - 1
      ensures !(IsSpace(c[a..b][k]) && IsSpace(c[a..b][k + 1]))
    {
      assert c[a..b][k] == c[a + k] && c[a..b][k + 1] == c[a + k + 1];
    }
  }

  lemma NonEmptyHasContent(r: string)
    requires |r| > 0 && !IsSpace(r[0])
    ensures RemoveSpaces(r) != ""
  {
    assert r == [r[0]] + r[1..];
    FilterConcat([r[0]], r[1..], NotSpace);
  }

  /** `s.replace(/\s+/g, ' ').trim()`, the cleaning applied to a bracket span's text. */
  function CollapseTrim(s: string): string {
    Trim(Collapse(s))
  }

  /**
    The cleaned text keeps every non-space character of `s` in order, neither
    starts nor ends with white space, holds no white space but single spaces,
    and is empty exactly when `s` is all white space.
   */
  lemma CollapseTrimCleans(s: string)
    ensures var r := CollapseTrim(s);
      && RemoveSpaces(r) == RemoveSpaces(s)
      && (|r| > 0 ==> !IsSpace(r[0]) && !IsSpace(r[|r| - 1]))
      && (forall k :: 0 <= k < |r| && IsSpace(r[k]) ==> r[k] == ' ')
      && (forall k :: 0 <= k < |r| - 1 ==> !(IsSpace(r[k]) && IsSpace(r[k + 1])))
      && (r == "" <==> RemoveSpaces(s) == "")
  {
    CollapseTrimShape(s);
    CollapseTrimContent(s);
  }

  lemma CollapseTrimShape(s: string)
    ensures var r := Trim(Collapse(s));
      && (forall k :: 0 <= k < |r| && IsSpace(r[k]) ==> r[k] == ' ')
      && (forall k :: 0 <= k < |r| - 1 ==> !(IsSpace(r[k]) && IsSpace(r[k + 1])))
  {
    var c := Collapse(s);
    CollapseShape(s);
    var a, b :| 0 <= a <= b <= |c| && Trim(c) == c[a..b] && AllSpaces(c[..a]) && AllSpaces(c[b..]);
    SliceKeepsShape(c, a, b);
  }

  lemma CollapseTrimContent(s: string)
    ensures RemoveSpaces(Trim(Collapse(s))) == RemoveSpaces(s)
    ensures Trim(Collapse(s)) == "" <==> RemoveSpaces(s) == ""
  {
    var c := Collapse(s);
    CollapseKeepsContent(s);
    RemoveSpacesOfTrim(c);
    if |Trim(c)| > 0 {
      NonEmptyHasContent(Trim(c));
    }
  }
}

=== FILE: upload_docx.dfy ===
/**
  `normalizeDocxAndExtractPlaceholders` of app/api/upload/route.ts once the
  archive has given up the text of `word/document.xml`: scan the runs, normalise
  the bracket spans, rebuild the XML and keep the first placeholder of every key.
 */
module UploadDocx {
  import opened RunScanner
  import opened Normalizer
  import opened Rebuild
  import opened Dedup

  /** The rebuilt `word/document.xml` and the placeholders returned to the client. */
  datatype Normalized = Normalized(xml: string, placeholders: seq<Placeholder>)

  function KeyOf(p: Placeholder): string { p.key }
  function PositionOf(p: Placeholder): int { p.position }

  lemma AscendingIsIncreasing(found: seq<Placeholder>)
    requires Ascending(found)
    ensures Increasing(found, PositionOf)
  {
  }

  /**
    The document is normalised in one pass. The rebuilt XML is the document with
    each run's text replaced by the text the pass gave it, escaped; the
    placeholders are the first one the pass found for each key, in the order the
    pass found them. So they have pairwise distinct keys, every key the pass
    found is among them, they are in increasing document position, each sits at
    the offset of a run holding a `[` and is consistent, and there are no more
    of them than runs.
   */
  function NormalizeDocument(xml: string): (r: Normalized)
    ensures var runs := Scan(xml);
      r.xml == Assemble(xml, runs, Normalize(xml, runs).texts)
    ensures var runs := Scan(xml);
      r.placeholders == FirstOccurrences(Normalize(xml, runs).found, KeyOf)
    ensures var runs := Scan(xml);
      && (forall a, b :: 0 <= a < b < |r.placeholders| ==> r.placeholders[a].key != r.placeholders[b].key)
      && Keys(r.placeholders, KeyOf) == Keys(Normalize(xml, runs).found, KeyOf)
      && (forall a, b :: 0 <= a < b < |r.placeholders| ==> r.placeholders[a].position < r.placeholders[b].position)
      && (forall p :: p in r.placeholders ==> Consistent(xml, p))
      && AtOpeningRuns(runs, 0, r.placeholders)
      && |r.placeholders| <= |runs|
  {
    var runs := Scan(xml);
    var out := Normalize(xml, runs);
    WellPlacedAscending(xml, runs);
    PassPositionsAscend(xml, runs, 0);
    PassEntriesConsistent(xml, runs, 0);
    AscendingIsIncreasing(out.found);
    KeepFirstFromKeepsOrder(out.found, KeyOf, {}, PositionOf);
    KeepFirstIsFirstOccurrences(out.found, KeyOf);
    var unique := KeepFirst(out.found, KeyOf);
    Normalized(Assemble(xml, runs, out.texts), unique)
  }

  /**
    The same computation with the loops the code runs: the cursor loop over the
    runs, the rebuild from the last run to the first and the insertion into a
    map keyed by placeholder key.
   */
  method NormalizeDocumentXml(xml: string) returns (rebuilt: string, placeholders: seq<Placeholder>)
    ensures Normalized(rebuilt, placeholders) == NormalizeDocument(xml)
  {
    var runs := Scan(xml);
    var newTexts, found := NormalizeRuns(xml, runs);
    rebuilt := RebuildXml(xml, runs, newTexts);
    placeholders := KeepFirstLoop(found, KeyOf);
  }

  /**
    A document in which no run holds a `[` and no run text holds a character
    `escapeXml` replaces comes back unchanged, with no placeholders.
   */
  lemma PlainDocumentUnchanged(xml: string)
    requires forall k :: 0 <= k < |Scan(xml)| ==> '[' !in Scan(xml)[k].text
    requires PlainFrom(Texts(Scan(xml)), 0)
    ensures NormalizeDocument(xml) == Normalized(xml, [])
  {
    var runs := Scan(xml);
    NoSpanChangesNothing(xml, runs);
    AssembleOriginal(xml, runs);
  }
}

=== FILE: xml_escape.dfy ===
/**
  `escapeXml` from app/api/upload/route.ts: five global replacements that turn
  the XML-reserved characters of a run's text into entity references before the
  text is put back between its tags. Its partner is `Unescape`, which decodes the
  five entities again.
 */
module XmlEscape {

  /** `s.replace(/c/g, rep)`. */
  function ReplaceAll(s: string, c: char, rep: string): (r: string)
    ensures c !in s ==> r == s
  {
    if |s| == 0 then ""
    else (if s[0] == c then rep else [s[0]]) + ReplaceAll(s[1..], c, rep)
  }

  lemma {:induction false} ReplaceAllConcat(a: string, b: string, c: char, rep: string)
    ensures ReplaceAll(a + b, c, rep) == ReplaceAll(a, c, rep) + ReplaceAll(b, c, rep)
  {
    if |a| == 0 {
      assert a + b == b;
    } else {
      assert (a + b)[0] == a[0];
      assert (a + b)[1..] == a[1..] + b;
      ReplaceAllConcat(a[1..], b, c, rep);
    }
  }

  /** The five characters `escapeXml` replaces. */
  predicate IsReserved(c: char) {
    c == '&' || c == '<' || c == '>' || c == '"' || c == '\''
  }

  /** The replacement `escapeXml` produces for one character. */
  function EntityOf(c: char): string {
    match c
    case '&' => "&amp;"
    case '<' => "&lt;"
    case '>' => "&gt;"
    case '"' => "&quot;"
    case '\'' => "&apos;"
    case _ => [c]
  }

  /** The character-by-character reading of `escapeXml`. */
  function EscapeEach(s: string): string {
    if |s| == 0 then "" else EntityOf(s[0]) + EscapeEach(s[1..])
  }

  /** The five replacements in the order the source applies them. */
  function ReplaceChain(s: string): string {
    var amp := ReplaceAll(s, '&', "&amp;");
    var lt := ReplaceAll(amp, '<', "&lt;");
    var gt := ReplaceAll(lt, '>', "&gt;");
    var quot := ReplaceAll(gt, '"', "&quot;");
    ReplaceAll(quot, '\'', "&apos;")
  }

  lemma ReplaceChainConcat(a: string, b: string)
    ensures ReplaceChain(a + b) == ReplaceChain(a) + ReplaceChain(b)
  {
    ReplaceAllConcat(a, b, '&', "&amp;");
    var a1, b1 := ReplaceAll(a, '&', "&amp;"), ReplaceAll(b, '&', "&amp;");
    ReplaceAllConcat(a1, b1, '<', "&lt;");
    var a2, b2 := ReplaceAll(a1, '<', "&lt;"), ReplaceAll(b1, '<', "&lt;");
    ReplaceAllConcat(a2, b2, '>', "&gt;");
    var a3, b3 := ReplaceAll(a2, '>', "&gt;"), ReplaceAll(b2, '>', "&gt;");
    ReplaceAllConcat(a3, b3, '"', "&quot;");
    var a4, b4 := ReplaceAll(a3, '"', "&quot;"), ReplaceAll(b3, '"', "&quot;");
    ReplaceAllConcat(a4, b4, '\'', "&apos;");
  }

  lemma ReplaceAllOfChar(c: char, d: char, rep: string)
    ensures ReplaceAll([c], d, rep) == if c == d then rep else [c]
  {
    assert [c][1..] == [];
  }

  /** A string none of whose characters is replaced by the later steps of the chain. */
  lemma ReplaceRestUnchanged(e: string)
    requires '<' !in e && '>' !in e && '"' !in e && '\'' !in e
    ensures ReplaceAll(ReplaceAll(ReplaceAll(ReplaceAll(e, '<', "&lt;"), '>', "&gt;"), '"', "&quot;"), '\'', "&apos;") == e
  {
  }

  lemma ReplaceChainOfChar(c: char)
    ensures ReplaceChain([c]) == EntityOf(c)
  {
    var one := [c];
    ReplaceAllOfChar(c, '&', "&amp;");
    if c == '&' {
      ReplaceRestUnchanged("&amp;");
    } else {
      ReplaceAllOfChar(c, '<', "&lt;");
      if c == '<' {
        assert '>' !in "&lt;" && '"' !in "&lt;" && '\'' !in "&lt;";
      } else {
        ReplaceAllOfChar(c, '>', "&gt;");
        if c == '>' {
          assert '"' !in "&gt;" && '\'' !in "&gt;";
        } else {
          ReplaceAllOfChar(c, '"', "&quot;");
          if c == '"' {
            assert '\'' !in "&quot;";
          } else {
            ReplaceAllOfChar(c, '\'', "&apos;");
          }
        }
      }
    }
  }

  /** Applying the replacements one after the other equals replacing each character by its entity. */
  lemma {:induction false} ReplaceChainIsPerCharacter(s: string)
    ensures ReplaceChain(s) == EscapeEach(s)
  {
    if |s| > 0 {
      assert s == [s[0]] + s[1..];
      ReplaceChainConcat([s[0]], s[1..]);
      ReplaceChainOfChar(s[0]);
      ReplaceChainIsPerCharacter(s[1..]);
    }
  }

  // ---------------------------------------------------------------- decoding

  predicate StartsWith(t: string, prefix: string) {
    |prefix| <= |t| && t[..|prefix|] == prefix
  }

  /** `t[k..]` begins with one of the five entity references. */
  predicate EntityAt(t: string, k: nat)
    requires k <= |t|
  {
    var rest := t[k..];
    StartsWith(rest, "&amp;") || StartsWith(rest, "&lt;") || StartsWith(rest, "&gt;")
    || StartsWith(rest, "&quot;") || StartsWith(rest, "&apos;")
  }

  /** Decodes the five entity references, scanning left to right. */
  function Unescape(t: string): string
    decreases |t|
  {
    if |t| == 0 then ""
    else if StartsWith(t, "&amp;") then "&" + Unescape(t[5..])
    else if StartsWith(t, "&lt;") then "<" + Unescape(t[4..])
    else if StartsWith(t, "&gt;") then ">" + Unescape(t[4..])
    else if StartsWith(t, "&quot;") then "\"" + Unescape(t[6..])
    else if StartsWith(t, "&apos;") then "'" + Unescape(t[6..])
    else [t[0]] + Unescape(t[1..])
  }

  lemma UnescapeEntity(c: char, rest: string)
    ensures Unescape(EntityOf(c) + rest) == [c] + Unescape(rest)
  {
    var e := EntityOf(c);
    var t := e + rest;
    assert t[..|e|] == e && t[|e|..] == rest;
    if c == '&' {
      assert StartsWith(t, "&amp;");
    } else if c == '<' {
      assert t[1] == 'l';
      assert !StartsWith(t, "&amp;");
      assert StartsWith(t, "&lt;");
    } else if c == '>' {
      assert t[1] == 'g';
      assert !StartsWith(t, "&amp;") && !StartsWith(t, "&lt;");
      assert StartsWith(t, "&gt;");
    } else if c == '"' {
      assert t[1] == 'q';
      assert !StartsWith(t, "&amp;") && !StartsWith(t, "&lt;") && !StartsWith(t, "&gt;");
      assert StartsWith(t, "&quot;");
    } else if c == '\'' {
      assert t[1] == 'a' && t[2] == 'p';
      assert !StartsWith(t, "&amp;") && !StartsWith(t, "&lt;") && !StartsWith(t, "&gt;");
      assert !StartsWith(t, "&quot;");
      assert StartsWith(t, "&apos;");
    } else {
      assert t[0] == c;
      assert !StartsWith(t, "&amp;") && !StartsWith(t, "&lt;") && !StartsWith(t, "&gt;");
      assert !StartsWith(t, "&quot;") && !StartsWith(t, "&apos;");
      assert t[1..] == rest;
    }
  }

  lemma {:induction false} UnescapeEscapeEach(s: string)
    ensures Unescape(EscapeEach(s)) == s
  {
    if |s| > 0 {
      UnescapeEntity(s[0], EscapeEach(s[1..]));
      UnescapeEscapeEach(s[1..]);
    }
  }

  lemma {:induction false} EscapeEachHasNoMarkup(s: string)
    ensures forall k :: 0 <= k < |EscapeEach(s)| ==>
      var c := EscapeEach(s)[k]; c != '<' && c != '>' && c != '"' && c != '\''
  {
    if |s| > 0 {
      EscapeEachHasNoMarkup(s[1..]);
      var e := EntityOf(s[0]);
      var t := EscapeEach(s);
      assert t == e + EscapeEach(s[1..]);
      forall k | 0 <= k < |t|
        ensures t[k] != '<' && t[k] != '>' && t[k] != '"' && t[k] != '\''
      {
        if k >= |e| {
          assert t[k] == EscapeEach(s[1..])[k - |e|];
        }
      }
    }
  }

  lemma {:induction false} EscapeEachAmpersands(s: string)
    ensures forall k :: 0 <= k < |EscapeEach(s)| && EscapeEach(s)[k] == '&' ==> EntityAt(EscapeEach(s), k)
  {
    if |s| > 0 {
      var rest := EscapeEach(s[1..]);
      EscapeEachAmpersands(s[1..]);
      var e := EntityOf(s[0]);
      var t := EscapeEach(s);
      assert t == e + rest;
      forall k | 0 <= k < |t| && t[k] == '&'
        ensures EntityAt(t, k)
      {
        if k < |e| {
          assert s[0] == '&' ==> e == "&amp;";
          assert k == 0 && t[..|e|] == e;
        } else {
          assert t[k..] == rest[k - |e|..];
          assert rest[k - |e|] == t[k];
        }
      }
    }
  }

  lemma {:induction false} EscapeEachPlain(s: string)
    requires forall k :: 0 <= k < |s| ==> !IsReserved(s[k])
    ensures EscapeEach(s) == s
  {
    if |s| > 0 {
      EscapeEachPlain(s[1..]);
      assert s == [s[0]] + s[1..];
    }
  }

  /**
    `escapeXml(text)`: decoding the result gives back the input. What the result
    looks like is stated by `EscapeXmlOutput`.
   */
  function EscapeXml(text: string): (r: string)
    ensures Unescape(r) == text
  {
    ReplaceChainIsPerCharacter(text);
    UnescapeEscapeEach(text);
    ReplaceChain(text)
  }

  /**
    The result of `escapeXml` holds none of `<`, `>`, `"` and `'`, every `&` in
    it begins one of the five entity references, and text without reserved
    characters passes through unchanged.
   */
  lemma EscapeXmlOutput(text: string)
    ensures var r := EscapeXml(text);
      && (forall k :: 0 <= k < |r| ==> r[k] != '<' && r[k] != '>' && r[k] != '"' && r[k] != '\'')
      && (forall k :: 0 <= k < |r| && r[k] == '&' ==> EntityAt(r, k))
      && ((forall k :: 0 <= k < |text| ==> !IsReserved(text[k])) ==> r == text)
  {
    ReplaceChainIsPerCharacter(text);
    EscapeEachHasNoMarkup(text);
    EscapeEachAmpersands(text);
    if forall k :: 0 <= k < |text| ==> !IsReserved(text[k]) {
      EscapeEachPlain(text);
    }
  }
}
